=== FILE: README.md ===
# Vanilla statistics ingester: snapshot deduplication and fact explosion

This project models the core of the Minecraft vanilla statistics ingester.
The ingester reads one statistics document per player, plus an optional
advancements document. It stores each document pair as a *snapshot* of the
player on a server, deduplicated by a fingerprint of the statistics document.
For every snapshot that is new, it flattens the documents into *stat facts*
(category, key, integer value) and *advancement facts* (key, done flag,
done-at timestamp). Each fact table has its own do-nothing-on-conflict key.
The model proves the properties a repeated run relies on:

- the fingerprint ignores key order;
- the dedup key and what a deduplicated insert leaves alone;
- facts exist exactly for the convertible entries, and only for a new snapshot;
- replaying an explosion, re-processing a file, or re-running a whole run adds
  no player, snapshot or fact row;
- the schema's uniqueness and reference constraints hold after every step.

Modules:

- `Wrappers`: `Option` and `Result`.
- `Json`: decoded JSON values. Objects keep their members in document order.
  Also Python truthiness and `dict.get`.
- `Canonical`: `json.dumps(sort_keys=True, separators=(",", ":"))` as two steps.
  `Canonicalize` sorts keys recursively. `Render` writes compact, ASCII-escaped
  text. `Sha256Json` applies a digest function to that text.
- `Externals`: the library behaviour the model takes as parameters. These are
  the SHA-256 digest, Python's `int()` on a JSON value, and
  `datetime.fromisoformat`, together with the timestamp type.
- `Tables`: a table as a sequence of rows with a uniqueness key, and
  `INSERT … ON CONFLICT DO NOTHING` for one row and for a batch.
- `Store`: the rows of `servers`, `players`, `ingests`,
  `player_server_snapshots`, `stat_facts` and `advancement_facts`. Also the
  schema constraints (`Valid`), `upsert_player`, `get_server_id`,
  `create_ingest`, `finish_ingest` and `insert_snapshot`.
- `Facts`: `explode_stats` and `explode_advancements`, split into pure row
  building and the conflict-safe insert, with a reference reading of each
  fact by lookup.
- `Pipeline`: the per-file loop body, the loop over a run's files, and the run
  as a whole, with its idempotence theorems.
- `Scenarios`: concrete documents and the rows or outcome the code gives
  for each.

Python exceptions that the code does not catch become `Err` values. A
non-object statistics document, a non-object `"stats"` member, or a truthy
non-object advancements document raises `AttributeError`. `max` over a mix
of timezone-aware and naive timestamps raises `TypeError`. Each file is its
own transaction. An exception rolls back the current file's writes and ends
the run, so it never reaches `finish_ingest`.

Documents come from `json.loads`, so every object has distinct keys
(`Json.WellFormed`). The model's values could repeat a key, so the theorems
about whole documents assume well-formedness.

Three behaviours of the code are easy to misread as something stronger or
more forgiving. The model follows the code in each:

- A run over already-ingested files adds no player, snapshot or fact row.
  It still inserts its own `ingests` row, so a rerun is not free of new rows
  in every table: `ingests` grows by one (`Pipeline.RerunAddsNoRows`).
- A file that cannot be decoded is skipped. A decoded file raises, when its
  snapshot is new, in exactly three cases: the statistics document is not
  an object (`stats_json.get` fails), its `"stats"` member is present but
  not an object (`.items()` fails), or the advancements document is truthy
  but not an object (`.items()` fails). The run then ends without a finish
  mark. Every other shape problem is skipped one field at a time: a missing
  `"stats"` counts as empty, a category that is not an object is skipped,
  a value `int()` rejects is skipped, and an advancement payload that is
  not an object is skipped (`Facts.StatRows`, `Facts.StatRowsExact`,
  `Facts.AdvancementRows`, `Facts.AdvRowsExact`).
- `done` is Python truthiness of the `"done"` member. The string `"false"`
  is therefore done; it is not treated as malformed and mapped to false
  (`Facts.DoneFlag`, `Scenarios.StringFalseIsDone`).

## Model

| member | source | states |
|---|---|---|
| Canonical.KeyOrderIndependence | ingest/ingest_vanilla.py:8-11 | Two well-formed documents differ only in the order of object keys, at any depth, exactly when their canonical forms are equal (both directions). |
| Canonical.SameHashForReorderedKeys | ingest/ingest_vanilla.py:8-11 | Documents that differ only in key order have the same canonical text and therefore the same fingerprint. |
| Canonical.CanonicalizePreserves | ingest/ingest_vanilla.py:10 | The canonical form is key-order-equivalent to the input, keeps keys distinct, and has every object's members strictly ascending by key. |
| Canonical.CanonicalizeIdempotent | ingest/ingest_vanilla.py:10 | Canonicalising a canonical document changes nothing. |
| Canonical.SortFields | ingest/ingest_vanilla.py:10 | Key sorting returns a permutation of the members: the same multiset. |
| Canonical.SortFieldsSorted | ingest/ingest_vanilla.py:10 | For members with distinct keys, the sorted result is strictly ascending under Python's code-point string order. |
| Canonical.SortedUnique | ingest/ingest_vanilla.py:10 | Two strictly key-sorted member lists with the same members are identical, so the sorted order is unique. |
| Canonical.EscapeChar | ingest/ingest_vanilla.py:10 | Each character is written as non-empty ASCII text. Printable ASCII other than quote and backslash is written as itself. |
| Canonical.Escape | ingest/ingest_vanilla.py:10 | An escaped string is pure ASCII and no shorter than the original. |
| Canonical.Quote | ingest/ingest_vanilla.py:10 | A quoted string is ASCII text that begins and ends with a double quote. |
| Canonical.RenderAscii | ingest/ingest_vanilla.py:10 | The compact text `json.dumps` writes for a document, with its default ASCII escaping, is pure ASCII. |
| Canonical.CanonicalTextAscii | ingest/ingest_vanilla.py:10-11 | The key-sorted compact text is pure ASCII, so the UTF-8 bytes that are hashed are one per character. |
| Json.Lookup | ingest/ingest_vanilla.py:98 | `dict.get` finds a value exactly when the key is a member, and returns that member's value. |
| Json.Falsy | ingest/ingest_vanilla.py:92 | A value is falsy exactly when it is `None`, `False`, a zero, or an empty string, list or dict. A missing value is never truthy. |
| Store.UpsertPlayer | ingest/ingest_vanilla.py:20-25 | Returns an id whose row carries this uuid. A known uuid leaves the store unchanged. A new uuid appends exactly one row with the next id. Constraints are kept. |
| Store.UpsertPlayerRepeat | ingest/ingest_vanilla.py:20-25 | Upserting the same uuid again returns the same id and changes nothing. |
| Store.FindPlayer | ingest/ingest_vanilla.py:20-25 | The id the conflicting upsert returns exists exactly when a row has the uuid, and it is that row's id. |
| Store.FindPlayerPrefix | ingest/ingest_vanilla.py:22 | Rows appended later do not change which player row a uuid resolves to. |
| Store.GetServerId | ingest/ingest_vanilla.py:27-32 | Succeeds exactly when some server row has the code, returning that row's id. Otherwise it fails with the missing code. |
| Store.FindServer | ingest/ingest_vanilla.py:28-31 | The lookup succeeds exactly when some row has the code, with a row's id. Otherwise it fails naming the code. |
| Store.CreateIngest | ingest/ingest_vanilla.py:34-39 | Appends one unfinished run row with the given server, source and notes, under an id no existing run has, and changes nothing else. |
| Store.FinishIngest | ingest/ingest_vanilla.py:41-42 | Stamps `finishedAt` on the rows with the given id, leaves every other run row and every other table as it was, and keeps the constraints. |
| Store.FinishIngestOnlyThatRun | ingest/ingest_vanilla.py:41-42 | In a valid store, the result differs from the input in exactly the one row of that run. An unknown id changes nothing. |
| Store.InsertSnapshot | ingest/ingest_vanilla.py:44-62 | When a snapshot with the same (server, player, statistics hash) exists, the store is unchanged and the result is `None`. Otherwise exactly one row is appended and its new id returned. |
| Store.NewSnapshot | ingest/ingest_vanilla.py:46-59 | The row carries the given id, run, observation time and statistics document. Its dedup key is (server, player, fingerprint of the statistics). The advancements document and its hash are stored exactly when the document is truthy. |
| Store.InsertSnapshotValid | ingest/ingest_vanilla.py:49-57 | Inserting a snapshot whose run, server and player exist keeps every uniqueness and reference constraint. |
| Store.NextSnapshotHasNoFacts | ingest/ingest_vanilla.py:82-86 | In a valid store no stat or advancement fact refers to the id the next snapshot receives. |
| Store.DedupIgnoresAdvancements | ingest/ingest_vanilla.py:47-55 | A second insert with the same statistics but different advancements is deduplicated. The stored row keeps the first insert's advancements. |
| Tables.InsertIgnore | ingest/ingest_vanilla.py:80-86 | One row of a do-nothing-on-conflict batch: the table grows by that row exactly when its key is absent, the key is present afterwards, and uniqueness is kept. |
| Tables.InsertAll | ingest/ingest_vanilla.py:80-89 | A conflict-safe batch insert only appends. Afterwards every batch key is present. Each appended row comes from the batch and its key was absent before. Uniqueness is kept. |
| Tables.InsertAllPresent | ingest/ingest_vanilla.py:115-124 | A batch whose keys are all present inserts nothing. |
| Tables.InsertAllIdempotent | ingest/ingest_vanilla.py:86 | Inserting the same batch twice is the same as inserting it once. |
| Tables.InsertAllFresh | ingest/ingest_vanilla.py:80-89 | A duplicate-free batch none of whose keys is present is appended whole, in batch order. |
| Facts.CategoryRows | ingest/ingest_vanilla.py:70-75 | Every row of a category carries the snapshot's origin, that category, and a key of the category object. |
| Facts.StatRowsOf | ingest/ingest_vanilla.py:67-75 | Every stat row carries the snapshot's origin and a category of the statistics object. |
| Facts.StatRowsExact | ingest/ingest_vanilla.py:64-76 | A row is produced exactly when its category is an object, its key is a member, `int()` accepts the value, and the row holds that integer (both directions). |
| Facts.StatRowsUnique | ingest/ingest_vanilla.py:75-86 | No two rows of one explosion share a (snapshot, category, key) conflict key. |
| Facts.StatRows | ingest/ingest_vanilla.py:64-67 | Raises exactly when the document is not an object, or its `"stats"` member is present but not an object. A missing `"stats"` yields no rows. An object `"stats"` yields the rows of its categories. |
| Facts.StatRowsDistinct | ingest/ingest_vanilla.py:64-86 | The rows built from a whole well-formed statistics document never repeat a (snapshot, category, key) conflict key. |
| Facts.ExplodeStats | ingest/ingest_vanilla.py:64-89 | Fails exactly when row building raises; the insert itself never does. Otherwise only the stat table changes, and only by appending. Each appended row is a built row with the snapshot's origin whose key was absent. Afterwards every built row's key is present, and uniqueness is kept. |
| Facts.ExplodeStatsFresh | ingest/ingest_vanilla.py:75-89 | For a snapshot with no stat fact yet, every built row is appended, in order: none is lost to a conflict. |
| Facts.ExplodeStatsExact | ingest/ingest_vanilla.py:64-89 | For a snapshot with no stat fact yet, a row is in the table afterwards exactly when it was there before, or it carries that snapshot's origin and `int(stats[category][key])` of a convertible entry (both directions). |
| Facts.ExplodeStatsReplay | ingest/ingest_vanilla.py:80-89 | Replaying a snapshot's stat explosion adds no row. |
| Facts.ExplodeStatsValid | ingest/ingest_vanilla.py:80-89 | Exploding the statistics of a stored snapshot keeps every constraint. |
| Facts.ReplaceZ | ingest/ingest_vanilla.py:108 | After the rewrite no `Z` remains, and a string without `Z` is unchanged. |
| Facts.ParsedTimes | ingest/ingest_vanilla.py:104-110 | A timestamp is collected exactly when some criterion value is a string that parses, after the `Z` rewrite, to it. |
| Facts.MaxFrom | ingest/ingest_vanilla.py:112 | The left-to-right `max` succeeds exactly when every timestamp's awareness matches the first. It then returns a member that no other member exceeds. |
| Facts.MaxTimestamp | ingest/ingest_vanilla.py:111-112 | `max` of a non-empty list succeeds exactly when the timestamps are all aware or all naive, and returns the latest one. |
| Facts.CriterionTimes | ingest/ingest_vanilla.py:101-110 | A missing or non-object `criteria` gives no timestamps. Otherwise a timestamp is collected exactly when some criterion value is a string that parses, after the `Z` rewrite, to it. |
| Facts.DoneAt | ingest/ingest_vanilla.py:99-112 | `done_at` is `None` exactly when no criterion timestamp parses. It raises exactly when parsed timestamps mix awareness. Otherwise it is the latest parsed timestamp. |
| Facts.DoneFlag | ingest/ingest_vanilla.py:98 | A missing `done` means not done. A present `done` is read by Python truthiness, so a boolean is taken as is. |
| Facts.AdvRowsOf | ingest/ingest_vanilla.py:95-113 | Raises exactly when some object payload's `done_at` raises. Otherwise every row carries the snapshot's origin and one of the document's keys. |
| Facts.AdvRowsExact | ingest/ingest_vanilla.py:94-113 | A row is produced exactly when its key's payload is an object and the row holds that payload's done flag and done-at (both directions). |
| Facts.AdvRowsUnique | ingest/ingest_vanilla.py:113-121 | No two rows of one explosion share a (snapshot, advancement key) conflict key. |
| Facts.AdvancementRows | ingest/ingest_vanilla.py:91-95 | A missing or falsy advancements document yields no rows. A truthy non-object raises. An object yields its entries' rows. |
| Facts.AdvancementRowsDistinct | ingest/ingest_vanilla.py:91-121 | The rows built from a whole well-formed advancements document never repeat a (snapshot, advancement key) conflict key. |
| Facts.ExplodeAdvancements | ingest/ingest_vanilla.py:91-124 | Fails exactly when row building raises; the insert itself never does. Otherwise only the advancement table changes, and only by appending. Each appended row is a built row with the snapshot's origin whose key was absent. Afterwards every built row's key is present, and uniqueness is kept. |
| Facts.ExplodeAdvancementsFresh | ingest/ingest_vanilla.py:113-124 | For a snapshot with no advancement fact yet, every built row is appended, in order. |
| Facts.ExplodeAdvancementsExact | ingest/ingest_vanilla.py:91-124 | For a snapshot with no advancement fact yet, a row is in the table afterwards exactly when it was there before, or it carries that snapshot's origin and the done flag and done-at of an object payload in a truthy document (both directions). |
| Facts.ExplodeAdvancementsReplay | ingest/ingest_vanilla.py:115-124 | Replaying a snapshot's advancement explosion adds no row. |
| Facts.ExplodeAdvancementsValid | ingest/ingest_vanilla.py:115-124 | Exploding the advancements of a stored snapshot keeps every constraint. |
| Pipeline.ExplodeSnapshot | ingest/ingest_vanilla.py:173-174 | Exploding an admitted snapshot raises exactly when building its stat rows or its advancement rows raises. Otherwise only the two fact tables change. |
| Pipeline.ExplodeSnapshotFresh | ingest/ingest_vanilla.py:173-174 | For a snapshot with no facts yet, every built stat row and every built advancement row is appended, in order. |
| Pipeline.ExplodeSnapshotValid | ingest/ingest_vanilla.py:173-174 | Exploding the facts of a stored snapshot keeps every constraint. |
| Pipeline.IngestFile | ingest/ingest_vanilla.py:151-176 | An undecodable file changes nothing. A processed file leaves servers and runs alone, only appends, and adds at most one player and one snapshot. Without a new snapshot it adds no fact. |
| Pipeline.IngestFileFacts | ingest/ingest_vanilla.py:169-174 | For a file whose snapshot is new, the step raises exactly when building the stat rows or the advancement rows raises. Otherwise the snapshot row and every built fact row are appended. |
| Pipeline.IngestFileStatFacts | ingest/ingest_vanilla.py:169-174 | After a file whose snapshot is new, a stat fact is stored exactly when it was stored before, or it is the new snapshot's reading of the statistics document (both directions). |
| Pipeline.IngestFileAdvancementFacts | ingest/ingest_vanilla.py:169-174 | After a file whose snapshot is new, an advancement fact is stored exactly when it was stored before, or it is the new snapshot's reading of the advancements document (both directions). |
| Pipeline.IngestFiles | ingest/ingest_vanilla.py:151-176 | Processing a run's files only appends rows and never touches servers or runs. |
| Pipeline.NewFactsBelongToNewSnapshot | ingest/ingest_vanilla.py:170-174 | Every fact a file adds belongs to the one snapshot that file admitted, so facts exist only for a new snapshot. |
| Pipeline.IngestFileValid | ingest/ingest_vanilla.py:169-176 | Processing a file keeps every uniqueness and reference constraint. |
| Pipeline.IngestFilesValid | ingest/ingest_vanilla.py:151-176 | Processing a run's files keeps every constraint, including up to a raised exception. |
| Pipeline.AbsorbedIsNoop | ingest/ingest_vanilla.py:169-174 | A file whose player and (server, player, statistics hash) snapshot exist changes nothing when processed. |
| Pipeline.IngestFileAbsorbs | ingest/ingest_vanilla.py:169-170 | After a file is processed, its player and its snapshot key are in the store. |
| Pipeline.IngestFileIdempotent | ingest/ingest_vanilla.py:151-176 | Processing the same file a second time, in the same or a later run, changes nothing. |
| Pipeline.IngestFilesAbsorbs | ingest/ingest_vanilla.py:151-176 | After a run's files all went through, every one of them is absorbed. |
| Pipeline.AllAbsorbedIsNoop | ingest/ingest_vanilla.py:151-176 | Files that are all absorbed go through without any change and without an exception. |
| Pipeline.Run | ingest/ingest_vanilla.py:144-180 | An unknown server code is exactly the configuration error, and it writes nothing. Otherwise one run row labelled `vanilla-json` is added. It is finished exactly when no file raised, and it crashes with the first file's exception otherwise. On a valid store, earlier run rows are untouched. |
| Pipeline.RunValid | ingest/ingest_vanilla.py:144-180 | A run keeps every constraint, whether it finishes, crashes or fails on configuration. |
| Pipeline.FinishedRunAbsorbs | ingest/ingest_vanilla.py:144-180 | After a finished run, every one of its files is absorbed. |
| Pipeline.RunOverAbsorbed | ingest/ingest_vanilla.py:144-180 | A run over absorbed files finishes and leaves players, snapshots and facts unchanged. It adds only its own run row. |
| Pipeline.RerunAddsNoRows | ingest/ingest_vanilla.py:144-180 | Re-running a finished run over the same files finishes and adds no player, snapshot or fact row. The one new row is its own run row. |
| Scenarios.NonNumericStatSkipped | ingest/ingest_vanilla.py:70-74 | `{"stats":{"custom":{"jump":"not-a-number"}}}` yields no stat row and no exception. |
| Scenarios.StringFalseIsDone | ingest/ingest_vanilla.py:98 | `"done": "false"` counts as done. `"done": ""` and `"done": 0` do not. |
| Scenarios.LatestCriterionIsDoneAt | ingest/ingest_vanilla.py:98-113 | An advancement with `done: true` and two `Z`-suffixed criterion timestamps yields one done row stamped with the later timestamp. |
| Scenarios.SingleAdvancement | ingest/ingest_vanilla.py:95-113 | A one-entry advancements object whose criteria can be ordered yields exactly that entry's row. |
| Scenarios.UtcSuffix | ingest/ingest_vanilla.py:108 | A `Z`-suffixed timestamp reaches the parser with an explicit `+00:00` offset. |
| Scenarios.ReplaceZAppend | ingest/ingest_vanilla.py:108 | The `Z` rewrite distributes over concatenation. |

## Left out

- Database, cursors and SQL text (ingest/ingest_vanilla.py:5, 139-146): tables are sequences of rows, and conflict handling is a key lookup. Row order in a table is insertion order. Connection set-up and the session time zone are not modelled.
- Transactions: each file is one atomic step, and an exception discards that step. Concurrent runs, and the storage-level atomicity of conflict handling between them, are not modelled, because runs are sequential here.
- SHA-256, `int()` and `datetime.fromisoformat` are parameters of the model (`Externals.Lib`), not implementations. The model only relies on them being functions.
- Float text: a JSON float is kept as the text `json.dumps` writes for it: Python's `repr` for a finite float, and `NaN`, `Infinity` or `-Infinity` otherwise. Its value and `int()` of it are left to the `int()` parameter.
- Strings are sequences of Unicode scalar values. Lone surrogates, which Python strings can hold after decoding `"\ud800"`, are not representable.
- `main`'s environment and configuration handling (ingest/ingest_vanilla.py:126-137) is left out. The statistics directory reaches `Pipeline.Run` only as the `notes` text.
- The file system is left out: globbing, sorted file order, file reading, decoding, mtimes, and uuid-from-filename (ingest/ingest_vanilla.py:13-15, 151-167). The caller supplies the files in order, each already read: statistics `None` when undecodable, advancements `None` when absent or undecodable, and the mtime as an instant.
- The clock (`now_utc`, the database's `now()`) is a parameter: `Run` takes the start and finish instants.
- Store.UpsertPlayer: ids come from a counter that advances only on an actual insert. A PostgreSQL sequence also consumes a value on a conflicting insert, so real ids can have gaps. The model promises only a fresh id, not the sequence's exact value.
- Store.InsertSnapshot: the same counter simplification as for players. Database errors are not modelled.
- Facts.ExplodeStats: every integer `int()` returns is stored. A value beyond the column's integer range would make the database raise. That overflow is not modelled.
- Canonical.Render: no contract beyond `Canonical.RenderAscii`. A parser for the rendered text, and with it a round trip, is not modelled, because the ingester never reads the text back.
- Timestamps are an instant plus an awareness flag. Offsets that name the same instant compare equal, as in Python, but the offset itself is not kept.

=== FILE: canonical.dfy ===
/** Canonical serialisation feeding the content hash: `json.dumps` with
    `sort_keys=True` and compact separators, then SHA-256 of the text.
    Sorting is modelled as a separate step (`Canonicalize`) from writing the
    text (`Render`), so that key-order independence can be stated on values. */
module Canonical {
  import opened Json

  /** Python's `<` on `str`: lexicographic by code point, a proper prefix first. */
  predicate Less(a: string, b: string)
    decreases |a|
  {
    if |a| == 0 then |b| > 0
    else if |b| == 0 then false
    else if a[0] != b[0] then a[0] < b[0]
    else Less(a[1..], b[1..])
  }

  lemma LessIrreflexive(a: string)
    ensures !Less(a, a)
  {
  }

  lemma LessTransitive(a: string, b: string, c: string)
    requires Less(a, b) && Less(b, c)
    ensures Less(a, c)
  {
  }

  lemma LessTotal(a: string, b: string)
    requires a != b
    ensures Less(a, b) || Less(b, a)
  {
    if |a| > 0 && |b| > 0 && a[0] == b[0] {
      assert a == [a[0]] + a[1..] && b == [b[0]] + b[1..];
      LessTotal(a[1..], b[1..]);
    }
  }

  lemma LessAsymmetric(a: string, b: string)
    requires Less(a, b)
    ensures !Less(b, a)
  {
  }

  /** Members in strictly increasing key order (hence with distinct keys). */
  predicate SortedByKey(fs: seq<Field>) {
    forall i, j :: 0 <= i < j < |fs| ==> Less(fs[i].key, fs[j].key)
  }

  lemma SortedDistinct(fs: seq<Field>)
    requires SortedByKey(fs)
    ensures DistinctKeys(fs)
  {
    forall i, j | 0 <= i < j < |fs| ensures fs[i].key != fs[j].key {
      LessIrreflexive(fs[i].key);
    }
  }

  /** One insertion step of the key sort. */
  function InsertField(f: Field, fs: seq<Field>): (r: seq<Field>)
    ensures multiset(r) == multiset(fs) + multiset{f}
  {
    if |fs| == 0 then [f]
    else if Less(f.key, fs[0].key) then [f] + fs
    else
      assert fs == [fs[0]] + fs[1..];
      [fs[0]] + InsertField(f, fs[1..])
  }

  lemma SameKeys(a: seq<Field>, b: seq<Field>)
    requires multiset(a) == multiset(b)
    ensures Keys(a) == Keys(b)
  {
    forall f ensures f in a <==> f in b {
      assert f in a <==> f in multiset(a);
      assert f in b <==> f in multiset(b);
    }
  }

  lemma TailKeys(fs: seq<Field>)
    requires |fs| > 0
    ensures Keys(fs) == {fs[0].key} + Keys(fs[1..])
  {
    assert forall f :: f in fs <==> f == fs[0] || f in fs[1..] by {
      assert fs == [fs[0]] + fs[1..];
    }
  }

  lemma {:induction false} InsertFieldSorted(f: Field, fs: seq<Field>)
    requires SortedByKey(fs) && f.key !in Keys(fs)
    ensures SortedByKey(InsertField(f, fs))
  {
    if |fs| == 0 {
    } else if Less(f.key, fs[0].key) {
      forall j | 1 < j < |fs| + 1
        ensures Less(f.key, ([f] + fs)[j].key)
      {
        LessTransitive(f.key, fs[0].key, fs[j - 1].key);
      }
    } else {
      TailKeys(fs);
      var rest := InsertField(f, fs[1..]);
      InsertFieldSorted(f, fs[1..]);
      assert fs[0].key != f.key && !Less(f.key, fs[0].key);
      HeadBelowInserted(f, fs, rest);
      ConsSorted(fs[0], rest);
    }
  }

  /** The head of a sorted list is below every member of its tail with a
      larger member inserted. */
  lemma HeadBelowInserted(f: Field, fs: seq<Field>, rest: seq<Field>)
    requires |fs| > 0 && SortedByKey(fs)
    requires fs[0].key != f.key && !Less(f.key, fs[0].key)
    requires multiset(rest) == multiset(fs[1..]) + multiset{f}
    ensures forall j :: 0 <= j < |rest| ==> Less(fs[0].key, rest[j].key)
  {
    LessTotal(f.key, fs[0].key);
    forall j | 0 <= j < |rest|
      ensures Less(fs[0].key, rest[j].key)
    {
      var g := rest[j];
      assert g in multiset(rest);
      if g != f {
        assert g in multiset(fs[1..]);
        var m :| 0 <= m < |fs[1..]| && fs[1..][m] == g;
        assert fs[m + 1] == g;
      }
    }
  }

  /** A member whose key is below every key of a sorted list stays sorted
      in front of it. */
  lemma ConsSorted(h: Field, rest: seq<Field>)
    requires SortedByKey(rest)
    requires forall j :: 0 <= j < |rest| ==> Less(h.key, rest[j].key)
    ensures SortedByKey([h] + rest)
  {
    forall i, j | 0 <= i < j < |rest| + 1 ensures Less(([h] + rest)[i].key, ([h] + rest)[j].key) {
      assert ([h] + rest)[j] == rest[j - 1];
      if i > 0 {
        assert ([h] + rest)[i] == rest[i - 1];
      }
    }
  }

  /** Sorts an object's members by key (insertion sort). */
  function SortFields(fs: seq<Field>): (r: seq<Field>)
    ensures multiset(r) == multiset(fs)
  {
    if |fs| == 0 then []
    else
      assert fs == [fs[0]] + fs[1..];
      InsertField(fs[0], SortFields(fs[1..]))
  }

  /** With distinct keys the sort yields strictly increasing keys. */
  lemma {:induction false} SortFieldsSorted(fs: seq<Field>)
    requires DistinctKeys(fs)
    ensures SortedByKey(SortFields(fs))
  {
    if |fs| > 0 {
      var rest := SortFields(fs[1..]);
      SortFieldsSorted(fs[1..]);
      SameKeys(rest, fs[1..]);
      forall g | g in fs[1..] ensures g.key != fs[0].key {
        var m :| 0 <= m < |fs[1..]| && fs[1..][m] == g;
        assert fs[m + 1] == g;
      }
      InsertFieldSorted(fs[0], rest);
    }
  }

  /** The value with the members of every object sorted by key, at every
      nesting level: the order `json.dumps(..., sort_keys=True)` writes. */
  function Canonicalize(v: Value): Value
    decreases v
  {
    match v
    case Array(xs) => Array(seq(|xs|, i requires 0 <= i < |xs| => Canonicalize(xs[i])))
    case Object(fs) => Object(SortFields(seq(|fs|, i requires 0 <= i < |fs| => Field(fs[i].key, Canonicalize(fs[i].value)))))
    case _ => v
  }

  /** Every object, at every nesting level, lists its members in strictly
      increasing key order. */
  predicate KeysSorted(v: Value)
    decreases v
  {
    match v
    case Array(xs) => forall i :: 0 <= i < |xs| ==> KeysSorted(xs[i])
    case Object(fs) => SortedByKey(fs) && forall i :: 0 <= i < |fs| ==> KeysSorted(fs[i].value)
    case _ => true
  }

  /** `a` and `b` hold the same content and differ at most in the order of
      the members of their objects, at any nesting level. */
  predicate Equiv(a: Value, b: Value)
    decreases a
  {
    match a
    case Array(xs) =>
      && b.Array?
      && |xs| == |b.items|
      && forall i :: 0 <= i < |xs| ==> Equiv(xs[i], b.items[i])
    case Object(fs) =>
      && b.Object?
      && Keys(fs) == Keys(b.fields)
      && forall i, k :: 0 <= i < |fs| && 0 <= k < |b.fields| && fs[i].key == b.fields[k].key ==>
                          Equiv(fs[i].value, b.fields[k].value)
    case _ => a == b
  }

  lemma {:induction false} EquivSymmetric(a: Value, b: Value)
    requires Equiv(a, b)
    ensures Equiv(b, a)
    decreases a
  {
    match a
    case Array(xs) =>
      forall i | 0 <= i < |xs| ensures Equiv(b.items[i], xs[i]) {
        EquivSymmetric(xs[i], b.items[i]);
      }
    case Object(fs) =>
      var gs := b.fields;
      forall k, i | 0 <= k < |gs| && 0 <= i < |fs| && gs[k].key == fs[i].key
        ensures Equiv(gs[k].value, fs[i].value)
      {
        EquivSymmetric(fs[i].value, gs[k].value);
      }
    case _ =>
  }

  lemma {:induction false} EquivTransitive(a: Value, b: Value, c: Value)
    requires Equiv(a, b) && Equiv(b, c)
    ensures Equiv(a, c)
    decreases a
  {
    match a
    case Array(xs) =>
      forall i | 0 <= i < |xs| ensures Equiv(xs[i], c.items[i]) {
        EquivTransitive(xs[i], b.items[i], c.items[i]);
      }
    case Object(fs) =>
      var gs, hs := b.fields, c.fields;
      forall i, k | 0 <= i < |fs| && 0 <= k < |hs| && fs[i].key == hs[k].key
        ensures Equiv(fs[i].value, hs[k].value)
      {
        assert fs[i] in fs;
        assert fs[i].key in Keys(gs);
        var g :| g in gs && g.key == fs[i].key;
        var j :| 0 <= j < |gs| && gs[j] == g;
        EquivTransitive(fs[i].value, gs[j].value, hs[k].value);
      }
    case _ =>
  }

  /** Two key-sorted member lists with the same members are the same list:
      the sorted order is determined by the content alone. */
  lemma {:induction false} SortedUnique(s: seq<Field>, t: seq<Field>)
    requires SortedByKey(s) && SortedByKey(t)
    requires forall f :: f in s <==> f in t
    ensures s == t
  {
    assert |s| > 0 ==> s[0] in t;
    assert |t| > 0 ==> t[0] in s;
    if |s| == 0 || |t| == 0 {
    } else {
      assert s[0] in t;
      var j :| 0 <= j < |t| && t[j] == s[0];
      assert t[0] in s;
      var i :| 0 <= i < |s| && s[i] == t[0];
      if j > 0 {
        if i > 0 {
          LessAsymmetric(s[0].key, s[i].key);
        } else {
          LessIrreflexive(s[0].key);
        }
      }
      assert s[0] == t[0];
      forall f ensures f in s[1..] <==> f in t[1..] {
        if f in s[1..] {
          var m :| 0 <= m < |s[1..]| && s[1..][m] == f;
          assert s[m + 1] == f;
          LessIrreflexive(s[0].key);
          assert f in t;
          assert s == [s[0]] + s[1..] && t == [t[0]] + t[1..];
        }
        if f in t[1..] {
          var m :| 0 <= m < |t[1..]| && t[1..][m] == f;
          assert t[m + 1] == f;
          LessIrreflexive(t[0].key);
          assert f in s;
          assert s == [s[0]] + s[1..] && t == [t[0]] + t[1..];
        }
      }
      SortedUnique(s[1..], t[1..]);
      assert s == [s[0]] + s[1..] && t == [t[0]] + t[1..];
    }
  }

  /** The members of an object with every value canonicalised, before sorting. */
  function CanonicalMembers(fs: seq<Field>): (r: seq<Field>)
    ensures |r| == |fs|
    ensures forall i :: 0 <= i < |fs| ==> r[i] == Field(fs[i].key, Canonicalize(fs[i].value))
  {
    seq(|fs|, i requires 0 <= i < |fs| => Field(fs[i].key, Canonicalize(fs[i].value)))
  }

  /** Canonicalisation keeps the content and keeps documents well formed. */
  lemma {:induction false} CanonicalizePreserves(v: Value)
    requires WellFormed(v)
    ensures Equiv(v, Canonicalize(v))
    ensures WellFormed(Canonicalize(v))
    ensures KeysSorted(Canonicalize(v))
    decreases v
  {
    match v
    case Array(xs) =>
      forall i | 0 <= i < |xs|
        ensures Equiv(xs[i], Canonicalize(xs[i])) && WellFormed(Canonicalize(xs[i])) && KeysSorted(Canonicalize(xs[i]))
      {
        CanonicalizePreserves(xs[i]);
      }
    case Object(fs) =>
      forall i | 0 <= i < |fs|
        ensures Equiv(fs[i].value, Canonicalize(fs[i].value))
        ensures WellFormed(Canonicalize(fs[i].value)) && KeysSorted(Canonicalize(fs[i].value))
      {
        CanonicalizePreserves(fs[i].value);
      }
      assert Canonicalize(v) == Object(SortFields(CanonicalMembers(fs)));
      SortedMembersPreserve(fs);
    case _ =>
  }

  /** The object step of `CanonicalizePreserves`, given its claim for every member value. */
  lemma SortedMembersPreserve(fs: seq<Field>)
    requires DistinctKeys(fs)
    requires forall i :: 0 <= i < |fs| ==> Equiv(fs[i].value, Canonicalize(fs[i].value))
    requires forall i :: 0 <= i < |fs| ==> WellFormed(Canonicalize(fs[i].value)) && KeysSorted(Canonicalize(fs[i].value))
    ensures Equiv(Object(fs), Object(SortFields(CanonicalMembers(fs))))
    ensures WellFormed(Object(SortFields(CanonicalMembers(fs))))
    ensures KeysSorted(Object(SortFields(CanonicalMembers(fs))))
  {
    var c := CanonicalMembers(fs);
    var s := SortFields(c);
    assert DistinctKeys(c);
    SortFieldsSorted(c);
    SameKeys(s, c);
    assert Keys(c) == Keys(fs) by {
      forall k | k in Keys(fs) ensures k in Keys(c) {
        var i :| 0 <= i < |fs| && fs[i].key == k;
        assert c[i] in c;
      }
      forall k | k in Keys(c) ensures k in Keys(fs) {
        var i :| 0 <= i < |c| && c[i].key == k;
        assert fs[i] in fs;
      }
    }
    forall k | 0 <= k < |s|
      ensures exists i :: 0 <= i < |fs| && s[k] == c[i]
    {
      assert s[k] in multiset(c);
    }
    forall i, k | 0 <= i < |fs| && 0 <= k < |s| && fs[i].key == s[k].key
      ensures Equiv(fs[i].value, s[k].value)
    {
      var m :| 0 <= m < |fs| && s[k] == c[m];
    }
    forall k | 0 <= k < |s|
      ensures WellFormed(s[k].value) && KeysSorted(s[k].value)
    {
      var m :| 0 <= m < |fs| && s[k] == c[m];
    }
    SortedDistinct(s);
  }

  /** Documents that differ only in key order have the same canonical form. */
  lemma {:induction false} EquivSameCanonical(a: Value, b: Value)
    requires WellFormed(a) && WellFormed(b) && Equiv(a, b)
    ensures Canonicalize(a) == Canonicalize(b)
    decreases a
  {
    match a
    case Array(xs) =>
      var ys := b.items;
      forall i | 0 <= i < |xs| ensures Canonicalize(xs[i]) == Canonicalize(ys[i]) {
        EquivSameCanonical(xs[i], ys[i]);
      }
      assert Canonicalize(a).items == Canonicalize(b).items;
    case Object(fs) =>
      var gs := b.fields;
      forall i, k | 0 <= i < |fs| && 0 <= k < |gs| && fs[i].key == gs[k].key
        ensures Canonicalize(fs[i].value) == Canonicalize(gs[k].value)
      {
        EquivSameCanonical(fs[i].value, gs[k].value);
      }
      assert Canonicalize(a) == Object(SortFields(CanonicalMembers(fs)));
      assert Canonicalize(b) == Object(SortFields(CanonicalMembers(gs)));
      SortedMembersAgree(fs, gs);
    case _ =>
  }

  /** The object step of `EquivSameCanonical`, given its claim for every pair of
      member values under the same key. */
  lemma SortedMembersAgree(fs: seq<Field>, gs: seq<Field>)
    requires DistinctKeys(fs) && DistinctKeys(gs) && Keys(fs) == Keys(gs)
    requires forall i, k :: 0 <= i < |fs| && 0 <= k < |gs| && fs[i].key == gs[k].key ==>
               Canonicalize(fs[i].value) == Canonicalize(gs[k].value)
    ensures SortFields(CanonicalMembers(fs)) == SortFields(CanonicalMembers(gs))
  {
    var cf, cg := CanonicalMembers(fs), CanonicalMembers(gs);
    forall f ensures f in cf ==> f in cg {
      if f in cf {
        var i :| 0 <= i < |cf| && cf[i] == f;
        assert fs[i] in fs;
        assert fs[i].key in Keys(gs);
        var g :| g in gs && g.key == fs[i].key;
        var k :| 0 <= k < |gs| && gs[k] == g;
        assert cg[k] == f;
      }
    }
    forall f ensures f in cg ==> f in cf {
      if f in cg {
        var k :| 0 <= k < |cg| && cg[k] == f;
        assert gs[k] in gs;
        assert gs[k].key in Keys(fs);
        var g :| g in fs && g.key == gs[k].key;
        var i :| 0 <= i < |fs| && fs[i] == g;
        assert cf[i] == f;
      }
    }
    assert DistinctKeys(cf) && DistinctKeys(cg);
    SortFieldsSorted(cf);
    SortFieldsSorted(cg);
    forall f ensures f in SortFields(cf) <==> f in SortFields(cg) {
      assert f in SortFields(cf) <==> f in multiset(SortFields(cf));
      assert f in SortFields(cg) <==> f in multiset(SortFields(cg));
      assert f in cf <==> f in multiset(cf);
      assert f in cg <==> f in multiset(cg);
    }
    SortedUnique(SortFields(cf), SortFields(cg));
  }

  /** Key-order independence of the hash input, both directions: two well
      formed documents have the same canonical form exactly when they differ
      at most in the order of object members. */
  lemma KeyOrderIndependence(a: Value, b: Value)
    requires WellFormed(a) && WellFormed(b)
    ensures Equiv(a, b) <==> Canonicalize(a) == Canonicalize(b)
  {
    if Equiv(a, b) {
      EquivSameCanonical(a, b);
    }
    if Canonicalize(a) == Canonicalize(b) {
      CanonicalizePreserves(a);
      CanonicalizePreserves(b);
      EquivSymmetric(b, Canonicalize(b));
      EquivTransitive(a, Canonicalize(a), b);
    }
  }

  /** Canonicalising twice changes nothing. */
  lemma CanonicalizeIdempotent(v: Value)
    requires WellFormed(v)
    ensures Canonicalize(Canonicalize(v)) == Canonicalize(v)
  {
    CanonicalizePreserves(v);
    EquivSameCanonical(v, Canonicalize(v));
  }

  // ------------------------------------------------------------- rendering

  /** Every character is 7-bit ASCII, so encoding the text as UTF-8 yields
      one byte per character. */
  predicate Ascii(s: string) {
    forall i :: 0 <= i < |s| ==> s[i] as int < 0x80
  }

  /** Every float's text in the document is ASCII, as the text `json.dumps`
      writes for a float (its `repr`, or `NaN`, `Infinity`, `-Infinity`)
      always is. */
  predicate AsciiFloats(v: Value)
    decreases v
  {
    match v
    case Float(r) => Ascii(r)
    case Array(xs) => forall i :: 0 <= i < |xs| ==> AsciiFloats(xs[i])
    case Object(fs) => forall i :: 0 <= i < |fs| ==> AsciiFloats(fs[i].value)
    case _ => true
  }

  /** Decimal text of an integer, as `json.dumps` writes an `int`. */
  function IntText(i: int): (r: string)
    ensures Ascii(r)
  {
    if i < 0 then "-" + NatText(-i) else NatText(i)
  }

  function NatText(n: nat): (r: string)
    ensures Ascii(r) && |r| > 0
    decreases n
  {
    if n < 10 then [Digit(n)] else NatText(n / 10) + [Digit(n % 10)]
  }

  function Digit(d: nat): (c: char)
    requires d < 16
    ensures '0' <= c <= '9' || 'a' <= c <= 'f'
  {
    "0123456789abcdef"[d]
  }

  /** Four lower-case hex digits of a code unit, as in a `\uXXXX` escape. */
  function Hex4(n: nat): (r: string)
    requires n < 0x1_0000
    ensures |r| == 4 && Ascii(r)
  {
    [Digit(n / 0x1000), Digit(n / 0x100 % 16), Digit(n / 0x10 % 16), Digit(n % 16)]
  }

  /** `json.dumps` string escaping with its default `ensure_ascii=True`:
      quote and backslash are backslash-escaped, the five usual control
      characters get their short escapes, other characters outside printable
      ASCII become `\uXXXX` (a surrogate pair above U+FFFF). */
  function EscapeChar(c: char): (r: string)
    ensures Ascii(r) && |r| > 0
    ensures ' ' <= c <= '~' && c != '"' && c != '\\' ==> r == [c]
  {
    if c == '"' then "\\\""
    else if c == '\\' then "\\\\"
    else if c == '\n' then "\\n"
    else if c == '\r' then "\\r"
    else if c == '\t' then "\\t"
    else if c == '\U{8}' then "\\b"
    else if c == '\U{C}' then "\\f"
    else if ' ' <= c <= '~' then [c]
    else if (c as int) < 0x1_0000 then "\\u" + Hex4(c as int)
    else
      var u := c as int - 0x1_0000;
      "\\u" + Hex4(0xD800 + u / 0x400) + "\\u" + Hex4(0xDC00 + u % 0x400)
  }

  function Escape(s: string): (r: string)
    ensures Ascii(r) && |r| >= |s|
    decreases |s|
  {
    if |s| == 0 then "" else EscapeChar(s[0]) + Escape(s[1..])
  }

  function Quote(s: string): (r: string)
    ensures Ascii(r) && |r| >= 2 && r[0] == '"' && r[|r| - 1] == '"'
  {
    "\"" + Escape(s) + "\""
  }

  /** Comma-separated concatenation: the compact item separator `","`. */
  function Join(parts: seq<string>): (r: string)
    ensures (forall i :: 0 <= i < |parts| ==> Ascii(parts[i])) ==> Ascii(r)
    decreases |parts|
  {
    if |parts| == 0 then ""
    else if |parts| == 1 then parts[0]
    else parts[0] + "," + Join(parts[1..])
  }

  /** Compact text of a value with members in the order given: separators
      `","` and `":"`, no whitespace. */
  function Render(v: Value): string
    decreases v
  {
    match v
    case Null => "null"
    case Bool(b) => if b then "true" else "false"
    case Int(i) => IntText(i)
    case Float(r) => r
    case Str(s) => Quote(s)
    case Array(xs) =>
      "[" + Join(seq(|xs|, i requires 0 <= i < |xs| => Render(xs[i]))) + "]"
    case Object(fs) =>
      "{" + Join(seq(|fs|, i requires 0 <= i < |fs| => Quote(fs[i].key) + ":" + Render(fs[i].value))) + "}"
  }

  /** With the default `ensure_ascii=True` the text is pure ASCII, so its
      UTF-8 encoding, the digest's input, has one byte per character. */
  lemma {:induction false} RenderAscii(v: Value)
    requires AsciiFloats(v)
    ensures Ascii(Render(v))
    decreases v
  {
    match v
    case Array(xs) =>
      var parts := seq(|xs|, i requires 0 <= i < |xs| => Render(xs[i]));
      forall i | 0 <= i < |xs| ensures Ascii(parts[i]) {
        RenderAscii(xs[i]);
      }
      assert Ascii(Join(parts));
    case Object(fs) =>
      var parts := seq(|fs|, i requires 0 <= i < |fs| => Quote(fs[i].key) + ":" + Render(fs[i].value));
      forall i | 0 <= i < |fs| ensures Ascii(parts[i]) {
        RenderAscii(fs[i].value);
      }
      assert Ascii(Join(parts));
    case _ =>
  }

  /** `json.dumps(obj, sort_keys=True, separators=(",", ":"))`. */
  function CanonicalText(v: Value): string {
    Render(Canonicalize(v))
  }

  /** Sorting keys keeps every float's text, so the canonical text of a
      document is pure ASCII. */
  lemma CanonicalTextAscii(v: Value)
    requires AsciiFloats(v)
    ensures Ascii(CanonicalText(v))
  {
    CanonicalizeAsciiFloats(v);
    RenderAscii(Canonicalize(v));
  }

  lemma {:induction false} CanonicalizeAsciiFloats(v: Value)
    requires AsciiFloats(v)
    ensures AsciiFloats(Canonicalize(v))
    decreases v
  {
    match v
    case Array(xs) =>
      forall i | 0 <= i < |xs| ensures AsciiFloats(Canonicalize(xs[i])) {
        CanonicalizeAsciiFloats(xs[i]);
      }
    case Object(fs) =>
      var mapped := seq(|fs|, i requires 0 <= i < |fs| => Field(fs[i].key, Canonicalize(fs[i].value)));
      var sorted := SortFields(mapped);
      assert Canonicalize(v) == Object(sorted);
      forall k | 0 <= k < |sorted| ensures AsciiFloats(sorted[k].value) {
        assert sorted[k] in multiset(mapped);
        var j :| 0 <= j < |mapped| && mapped[j] == sorted[k];
        assert fs[j] < v;
        CanonicalizeAsciiFloats(fs[j].value);
      }
    case _ =>
  }

  /** `sha256_json`: the digest of the canonical text; the digest function
      itself is a parameter. */
  function Sha256Json(sha256: string -> string, v: Value): string {
    sha256(CanonicalText(v))
  }

  /** Reordering keys, at any level, changes neither the canonical text nor
      the hash of a document. */
  lemma SameHashForReorderedKeys(sha256: string -> string, a: Value, b: Value)
    requires WellFormed(a) && WellFormed(b) && Equiv(a, b)
    ensures CanonicalText(a) == CanonicalText(b)
    ensures Sha256Json(sha256, a) == Sha256Json(sha256, b)
  {
    EquivSameCanonical(a, b);
  }
}

=== FILE: externals.dfy ===
/** Library behaviour the ingester relies on but does not define, passed in
    as functions rather than modelled: the SHA-256 digest, Python's `int()`
    coercion of a decoded JSON value, and `datetime.fromisoformat`. */
module Externals {
  import opened Wrappers
  import Json

  /** A hex digest as `hashlib.sha256(...).hexdigest()` returns it. */
  type Digest = string

  /** A point in time on a totally ordered scale. */
  type Instant = int

  /** What `datetime.fromisoformat` yields: `instant` orders timestamps of
      the same kind; `aware` is whether the text carried a UTC offset. Python
      refuses to order an offset-aware timestamp against a naive one. */
  datatype Timestamp = Timestamp(instant: Instant, aware: bool)

  datatype Lib = Lib(
    sha256: string -> Digest,
    toInt: Json.Value -> Option<int>,
    fromIsoFormat: string -> Option<Timestamp>
  )
}

=== FILE: facts.dfy ===
/** Fact explosion: flattening an admitted snapshot's documents into stat
    fact rows and advancement fact rows, each batch inserted under its own
    do-nothing-on-conflict key. Building the rows is pure; the insert is
    `Tables.InsertAll`. */
module Facts {
  import opened Wrappers
  import opened Json
  import opened Externals
  import opened Tables
  import opened Store

  /** The Python exception a malformed document raises; it aborts the run. */
  datatype Fault =
    | AttributeError(what: string)
    | TypeError(what: string)

  // ---------------------------------------------------------------- stats

  /** The rows of one category object: one per stat whose value `int()`
      accepts, in the object's order; other stats are skipped. */
  function CategoryRows(o: Origin, category: string, kv: seq<Field>, toInt: Value -> Option<int>): (r: seq<StatFact>)
    ensures forall f :: f in r ==> StatOrigin(f) == o && f.category == category && f.statKey in Keys(kv)
    decreases |kv|
  {
    if |kv| == 0 then []
    else
      KeysOfTail(kv);
      var head := match toInt(kv[0].value)
                  case Some(n) => [StatFact(o.snapshotId, o.playerId, o.serverId, o.observedAt, category, kv[0].key, n)]
                  case None => [];
      head + CategoryRows(o, category, kv[1..], toInt)
  }

  /** The rows of every category object of `stats_json["stats"]`, in order;
      categories whose value is not an object are skipped. */
  function StatRowsOf(o: Origin, cats: seq<Field>, toInt: Value -> Option<int>): (r: seq<StatFact>)
    ensures forall f :: f in r ==> StatOrigin(f) == o && f.category in Keys(cats)
    decreases |cats|
  {
    if |cats| == 0 then []
    else
      KeysOfTail(cats);
      var head := match cats[0].value
                  case Object(kv) => CategoryRows(o, cats[0].key, kv, toInt)
                  case _ => [];
      head + StatRowsOf(o, cats[1..], toInt)
  }

  lemma KeysOfTail(fs: seq<Field>)
    requires |fs| > 0
    ensures Keys(fs) == {fs[0].key} + Keys(fs[1..])
    ensures DistinctKeys(fs) ==> fs[0].key !in Keys(fs[1..]) && DistinctKeys(fs[1..])
  {
    assert forall f :: f in fs <==> f == fs[0] || f in fs[1..] by {
      assert fs == [fs[0]] + fs[1..];
    }
    if DistinctKeys(fs) {
      forall f | f in fs[1..] ensures f.key != fs[0].key {
        var m :| 0 <= m < |fs[1..]| && fs[1..][m] == f;
        assert fs[m + 1] == f;
      }
    }
  }

  /** Within one category the rows have distinct stat keys. */
  lemma {:induction false} CategoryRowsUnique(o: Origin, category: string, kv: seq<Field>, toInt: Value -> Option<int>)
    requires DistinctKeys(kv)
    ensures UniqueKeys(CategoryRows(o, category, kv, toInt), StatKey)
    decreases |kv|
  {
    if |kv| > 0 {
      KeysOfTail(kv);
      CategoryRowsUnique(o, category, kv[1..], toInt);
      var head := match toInt(kv[0].value)
                  case Some(n) => [StatFact(o.snapshotId, o.playerId, o.serverId, o.observedAt, category, kv[0].key, n)]
                  case None => [];
      assert CategoryRows(o, category, kv, toInt) == head + CategoryRows(o, category, kv[1..], toInt);
      UniqueConcat(head, CategoryRows(o, category, kv[1..], toInt), StatKey);
    }
  }

  /** A well-formed statistics object yields at most one row per
      (category, stat key). */
  lemma {:induction false} StatRowsUnique(o: Origin, cats: seq<Field>, toInt: Value -> Option<int>)
    requires WellFormed(Object(cats))
    ensures UniqueKeys(StatRowsOf(o, cats, toInt), StatKey)
    decreases |cats|
  {
    if |cats| > 0 {
      KeysOfTail(cats);
      assert WellFormed(Object(cats[1..])) by {
        forall i | 0 <= i < |cats[1..]| ensures WellFormed(cats[1..][i].value) {
          assert cats[1..][i] == cats[i + 1];
        }
      }
      StatRowsUnique(o, cats[1..], toInt);
      assert cats[0] in cats;
      var head := match cats[0].value
                  case Object(kv) => CategoryRows(o, cats[0].key, kv, toInt)
                  case _ => [];
      if cats[0].value.Object? {
        CategoryRowsUnique(o, cats[0].key, cats[0].value.fields, toInt);
      }
      assert StatRowsOf(o, cats, toInt) == head + StatRowsOf(o, cats[1..], toInt);
      UniqueConcat(head, StatRowsOf(o, cats[1..], toInt), StatKey);
    }
  }

  /** The reference reading of one stat, by lookup rather than iteration:
      `int(stats[category][key])` when `stats[category]` is an object holding
      `key` and the conversion succeeds. */
  function StatValue(cats: seq<Field>, category: string, key: string, toInt: Value -> Option<int>): Option<int> {
    match Lookup(cats, category)
    case Some(Object(kv)) =>
      (match Lookup(kv, key)
       case Some(v) => toInt(v)
       case None => None)
    case _ => None
  }

  /** One category's rows are exactly its convertible stats. */
  lemma {:induction false} CategoryRowsExact(o: Origin, category: string, kv: seq<Field>, toInt: Value -> Option<int>, f: StatFact)
    requires DistinctKeys(kv)
    ensures f in CategoryRows(o, category, kv, toInt) <==>
              && StatOrigin(f) == o && f.category == category
              && Lookup(kv, f.statKey).Some? && toInt(Lookup(kv, f.statKey).value) == Some(f.value)
    decreases |kv|
  {
    if |kv| > 0 {
      KeysOfTail(kv);
      CategoryRowsExact(o, category, kv[1..], toInt, f);
      var head := match toInt(kv[0].value)
                  case Some(n) => [StatFact(o.snapshotId, o.playerId, o.serverId, o.observedAt, category, kv[0].key, n)]
                  case None => [];
      assert CategoryRows(o, category, kv, toInt) == head + CategoryRows(o, category, kv[1..], toInt);
      if f.statKey == kv[0].key {
        assert f !in CategoryRows(o, category, kv[1..], toInt);
      }
    }
  }

  /** `explode_stats` emits exactly one row per (category, stat key) whose
      category is an object and whose value converts, each carrying the
      snapshot's origin, and nothing else. */
  lemma {:induction false} StatRowsExact(o: Origin, cats: seq<Field>, toInt: Value -> Option<int>, f: StatFact)
    requires WellFormed(Object(cats))
    ensures f in StatRowsOf(o, cats, toInt) <==>
              StatOrigin(f) == o && StatValue(cats, f.category, f.statKey, toInt) == Some(f.value)
    decreases |cats|
  {
    if |cats| > 0 {
      KeysOfTail(cats);
      assert WellFormed(Object(cats[1..])) by {
        forall i | 0 <= i < |cats[1..]| ensures WellFormed(cats[1..][i].value) {
          assert cats[1..][i] == cats[i + 1];
        }
      }
      StatRowsExact(o, cats[1..], toInt, f);
      assert cats[0] in cats;
      var head := match cats[0].value
                  case Object(kv) => CategoryRows(o, cats[0].key, kv, toInt)
                  case _ => [];
      assert StatRowsOf(o, cats, toInt) == head + StatRowsOf(o, cats[1..], toInt);
      if cats[0].value.Object? {
        CategoryRowsExact(o, cats[0].key, cats[0].value.fields, toInt, f);
      }
      if f.category == cats[0].key {
        assert f !in StatRowsOf(o, cats[1..], toInt);
      }
    }
  }

  /** The rows that `explode_stats` builds from a statistics document, or the
      exception it raises: `stats_json.get` needs an object, and so does the
      `.items()` of its `"stats"` member (absent means no rows). */
  function StatRows(o: Origin, statsJson: Value, lib: Lib): (r: Result<seq<StatFact>, Fault>)
    ensures r.Err? <==> !statsJson.Object? || (var s := Lookup(statsJson.fields, "stats"); s.Some? && !s.value.Object?)
    ensures r.Ok? ==> forall f :: f in r.value ==> StatOrigin(f) == o
    ensures statsJson.Object? && Lookup(statsJson.fields, "stats").None? ==> r == Ok([])
    ensures forall cats :: statsJson.Object? && Lookup(statsJson.fields, "stats") == Some(Object(cats)) ==>
              r == Ok(StatRowsOf(o, cats, lib.toInt))
  {
    match statsJson
    case Object(top) =>
      (match Lookup(top, "stats")
       case None => Ok([])
       case Some(Object(cats)) => Ok(StatRowsOf(o, cats, lib.toInt))
       case Some(_) => Err(AttributeError("'stats' member has no items()")))
    case _ => Err(AttributeError("statistics document has no get()"))
  }

  /** `explode_stats`: inserts the stat rows, leaving any row whose
      (snapshot, category, stat key) is already present untouched. Only
      building the rows can raise; the insert itself never does. */
  function ExplodeStats(db: Db, o: Origin, statsJson: Value, lib: Lib): (r: Result<Db, Fault>)
    ensures r.Err? <==> StatRows(o, statsJson, lib).Err?
    ensures r.Ok? ==> r.value == db.(statFacts := r.value.statFacts)
    ensures r.Ok? ==> db.statFacts <= r.value.statFacts
    ensures r.Ok? ==> forall i :: |db.statFacts| <= i < |r.value.statFacts| ==>
              && r.value.statFacts[i] in StatRows(o, statsJson, lib).value
              && StatOrigin(r.value.statFacts[i]) == o
              && !HasKey(db.statFacts, StatKey, StatKey(r.value.statFacts[i]))
    ensures r.Ok? ==> forall x :: x in StatRows(o, statsJson, lib).value ==> HasKey(r.value.statFacts, StatKey, StatKey(x))
    ensures r.Ok? && UniqueKeys(db.statFacts, StatKey) ==> UniqueKeys(r.value.statFacts, StatKey)
  {
    var rows :- StatRows(o, statsJson, lib);
    Ok(db.(statFacts := InsertAll(db.statFacts, StatKey, rows)))
  }

  // --------------------------------------------------------- advancements

  /** `v.replace("Z", "+00:00")`: every `Z` becomes an explicit UTC offset. */
  function ReplaceZ(s: string): (r: string)
    ensures 'Z' !in r
    ensures 'Z' !in s ==> r == s
    decreases |s|
  {
    if |s| == 0 then ""
    else
      assert s == [s[0]] + s[1..];
      (if s[0] == 'Z' then "+00:00" else [s[0]]) + ReplaceZ(s[1..])
  }

  /** The criterion timestamps that parse, in the criteria object's order:
      non-string values and strings `fromisoformat` rejects are dropped. */
  function ParsedTimes(crit: seq<Field>, parse: string -> Option<Timestamp>): (r: seq<Timestamp>)
    ensures forall t :: t in r <==>
              exists i :: 0 <= i < |crit| && crit[i].value.Str? && parse(ReplaceZ(crit[i].value.s)) == Some(t)
    decreases |crit|
  {
    if |crit| == 0 then []
    else
      var head := match crit[0].value
                  case Str(s) => (match parse(ReplaceZ(s)) case Some(t) => [t] case None => [])
                  case _ => [];
      var rest := ParsedTimes(crit[1..], parse);
      assert forall t :: t in rest <==>
               exists i :: 1 <= i < |crit| && crit[i].value.Str? && parse(ReplaceZ(crit[i].value.s)) == Some(t) by {
        forall t | t in rest
          ensures exists i :: 1 <= i < |crit| && crit[i].value.Str? && parse(ReplaceZ(crit[i].value.s)) == Some(t)
        {
          var i :| 0 <= i < |crit[1..]| && crit[1..][i].value.Str? && parse(ReplaceZ(crit[1..][i].value.s)) == Some(t);
          assert crit[i + 1] == crit[1..][i];
        }
        forall t | exists i :: 1 <= i < |crit| && crit[i].value.Str? && parse(ReplaceZ(crit[i].value.s)) == Some(t)
          ensures t in rest
        {
          var i :| 1 <= i < |crit| && crit[i].value.Str? && parse(ReplaceZ(crit[i].value.s)) == Some(t);
          assert crit[1..][i - 1] == crit[i];
        }
      }
      head + rest
  }

  /** Python's `max` as a left fold from `m`: each later element is compared
      with the running maximum, and comparing an offset-aware timestamp with
      a naive one raises. */
  function MaxFrom(m: Timestamp, rest: seq<Timestamp>): (r: Result<Timestamp, Fault>)
    ensures r.Ok? <==> forall t :: t in rest ==> t.aware == m.aware
    ensures r.Ok? ==> (r.value == m || r.value in rest) && m.instant <= r.value.instant
    ensures r.Ok? ==> forall t :: t in rest ==> t.instant <= r.value.instant
    decreases |rest|
  {
    if |rest| == 0 then Ok(m)
    else if rest[0].aware != m.aware then
      Err(TypeError("can't compare offset-naive and offset-aware datetimes"))
    else
      assert forall t :: t in rest <==> t == rest[0] || t in rest[1..] by {
        assert rest == [rest[0]] + rest[1..];
      }
      MaxFrom(if rest[0].instant > m.instant then rest[0] else m, rest[1..])
  }

  /** All timestamps are of one kind, so Python can order them. */
  predicate Comparable(ts: seq<Timestamp>) {
    forall i, j :: 0 <= i < |ts| && 0 <= j < |ts| ==> ts[i].aware == ts[j].aware
  }

  /** `max(ts)` of a non-empty list. */
  function MaxTimestamp(ts: seq<Timestamp>): (r: Result<Timestamp, Fault>)
    requires |ts| > 0
    ensures r.Ok? <==> Comparable(ts)
    ensures r.Ok? ==> r.value in ts && forall t :: t in ts ==> t.instant <= r.value.instant
  {
    assert forall t :: t in ts <==> t == ts[0] || t in ts[1..] by {
      assert ts == [ts[0]] + ts[1..];
    }
    MaxFrom(ts[0], ts[1..])
  }

  /** The parsed criterion timestamps of a payload: none unless
      `payload["criteria"]` is an object. */
  function CriterionTimes(payload: seq<Field>, parse: string -> Option<Timestamp>): (r: seq<Timestamp>)
    ensures !(Lookup(payload, "criteria").Some? && Lookup(payload, "criteria").value.Object?) ==> r == []
    ensures Lookup(payload, "criteria").Some? && Lookup(payload, "criteria").value.Object? ==>
              var crit := Lookup(payload, "criteria").value.fields;
              forall t :: t in r <==>
                exists i :: 0 <= i < |crit| && crit[i].value.Str? && parse(ReplaceZ(crit[i].value.s)) == Some(t)
  {
    match Lookup(payload, "criteria")
    case Some(Object(crit)) => ParsedTimes(crit, parse)
    case _ => []
  }

  /** `done_at`: the latest criterion timestamp that parses, `None` when the
      criteria are missing, not an object, empty, or none of them parse; the
      `max` raises when aware and naive timestamps are mixed. */
  function DoneAt(payload: seq<Field>, parse: string -> Option<Timestamp>): (r: Result<Option<Timestamp>, Fault>)
    ensures r == Ok(None) <==> |CriterionTimes(payload, parse)| == 0
    ensures r.Err? <==> !Comparable(CriterionTimes(payload, parse))
    ensures r.Ok? && r.value.Some? ==>
              && r.value.value in CriterionTimes(payload, parse)
              && forall t :: t in CriterionTimes(payload, parse) ==> t.instant <= r.value.value.instant
  {
    match Lookup(payload, "criteria")
    case Some(Object(crit)) =>
      if |crit| == 0 then Ok(None)
      else
        var ts := ParsedTimes(crit, parse);
        if |ts| == 0 then Ok(None)
        else
          var latest :- MaxTimestamp(ts);
          Ok(Some(latest))
    case _ => Ok(None)
  }

  /** `bool(payload.get("done", False))`. */
  function DoneFlag(payload: seq<Field>): (r: bool)
    ensures Lookup(payload, "done").None? ==> !r
    ensures forall b :: Lookup(payload, "done") == Some(Bool(b)) ==> r == b
    ensures Lookup(payload, "done").Some? ==> r == Truthy(Lookup(payload, "done").value)
  {
    Truthy(Lookup(payload, "done").GetOr(Bool(false)))
  }

  /** The rows of the advancements object's entries, in order: one per entry
      whose payload is an object; other entries are skipped. */
  function AdvRowsOf(o: Origin, entries: seq<Field>, parse: string -> Option<Timestamp>): (r: Result<seq<AdvancementFact>, Fault>)
    ensures r.Err? <==> exists i :: 0 <= i < |entries| && entries[i].value.Object? && DoneAt(entries[i].value.fields, parse).Err?
    ensures r.Ok? ==> forall f :: f in r.value ==> AdvancementOrigin(f) == o && f.advancementKey in Keys(entries)
    decreases |entries|
  {
    if |entries| == 0 then Ok([])
    else
      KeysOfTail(entries);
      assert forall i :: 1 <= i < |entries| ==> entries[i] == entries[1..][i - 1];
      match entries[0].value
      case Object(p) =>
        var doneAt :- DoneAt(p, parse);
        var rest :- AdvRowsOf(o, entries[1..], parse);
        Ok([AdvancementFact(o.snapshotId, o.playerId, o.serverId, o.observedAt, entries[0].key, DoneFlag(p), doneAt)] + rest)
      case _ => AdvRowsOf(o, entries[1..], parse)
  }

  /** The reference reading of one advancement, by lookup: its done flag and
      done-at timestamp when its payload is an object whose criteria can be
      ordered. */
  function AdvancementReading(entries: seq<Field>, key: string, parse: string -> Option<Timestamp>): Option<(bool, Option<Timestamp>)> {
    match Lookup(entries, key)
    case Some(Object(p)) =>
      (match DoneAt(p, parse)
       case Ok(doneAt) => Some((DoneFlag(p), doneAt))
       case Err(_) => None)
    case _ => None
  }

  /** When it succeeds, `explode_advancements` emits exactly one row per
      entry whose payload is an object, carrying the snapshot's origin. */
  lemma {:induction false} AdvRowsExact(o: Origin, entries: seq<Field>, parse: string -> Option<Timestamp>, f: AdvancementFact)
    requires WellFormed(Object(entries))
    requires AdvRowsOf(o, entries, parse).Ok?
    ensures f in AdvRowsOf(o, entries, parse).value <==>
              AdvancementOrigin(f) == o && AdvancementReading(entries, f.advancementKey, parse) == Some((f.done, f.doneAt))
    decreases |entries|
  {
    if |entries| > 0 {
      KeysOfTail(entries);
      assert WellFormed(Object(entries[1..])) by {
        forall i | 0 <= i < |entries[1..]| ensures WellFormed(entries[1..][i].value) {
          assert entries[1..][i] == entries[i + 1];
        }
      }
      assert forall i :: 1 <= i < |entries| ==> entries[i] == entries[1..][i - 1];
      AdvRowsExact(o, entries[1..], parse, f);
      if f.advancementKey == entries[0].key {
        assert f !in AdvRowsOf(o, entries[1..], parse).value;
      }
    }
  }

  /** At most one row per advancement key. */
  lemma {:induction false} AdvRowsUnique(o: Origin, entries: seq<Field>, parse: string -> Option<Timestamp>)
    requires DistinctKeys(entries)
    requires AdvRowsOf(o, entries, parse).Ok?
    ensures UniqueKeys(AdvRowsOf(o, entries, parse).value, AdvancementKey)
    decreases |entries|
  {
    if |entries| > 0 {
      KeysOfTail(entries);
      assert forall i :: 1 <= i < |entries| ==> entries[i] == entries[1..][i - 1];
      AdvRowsUnique(o, entries[1..], parse);
      var rest := AdvRowsOf(o, entries[1..], parse).value;
      if entries[0].value.Object? {
        var p := entries[0].value.fields;
        var head := [AdvancementFact(o.snapshotId, o.playerId, o.serverId, o.observedAt, entries[0].key, DoneFlag(p), DoneAt(p, parse).value)];
        assert AdvRowsOf(o, entries, parse).value == head + rest;
        UniqueConcat(head, rest, AdvancementKey);
      }
    }
  }

  /** The rows `explode_advancements` builds, or the exception it raises:
      nothing when the document is `None` or falsy, and `.items()` needs an
      object otherwise. */
  function AdvancementRows(o: Origin, adv: Option<Value>, lib: Lib): (r: Result<seq<AdvancementFact>, Fault>)
    ensures !Present(adv) ==> r == Ok([])
    ensures Present(adv) && !adv.value.Object? ==> r.Err?
    ensures Present(adv) && adv.value.Object? ==> r == AdvRowsOf(o, adv.value.fields, lib.fromIsoFormat)
  {
    if !Present(adv) then Ok([])
    else
      match adv.value
      case Object(entries) => AdvRowsOf(o, entries, lib.fromIsoFormat)
      case _ => Err(AttributeError("advancements document has no items()"))
  }

  /** `explode_advancements`: inserts the advancement rows, leaving any row
      whose (snapshot, advancement key) is already present untouched. Only
      building the rows can raise; the insert itself never does. */
  function ExplodeAdvancements(db: Db, o: Origin, adv: Option<Value>, lib: Lib): (r: Result<Db, Fault>)
    ensures r.Err? <==> AdvancementRows(o, adv, lib).Err?
    ensures r.Ok? ==> r.value == db.(advancementFacts := r.value.advancementFacts)
    ensures r.Ok? ==> db.advancementFacts <= r.value.advancementFacts
    ensures r.Ok? ==> forall i :: |db.advancementFacts| <= i < |r.value.advancementFacts| ==>
              && r.value.advancementFacts[i] in AdvancementRows(o, adv, lib).value
              && AdvancementOrigin(r.value.advancementFacts[i]) == o
              && !HasKey(db.advancementFacts, AdvancementKey, AdvancementKey(r.value.advancementFacts[i]))
    ensures r.Ok? ==> forall x :: x in AdvancementRows(o, adv, lib).value ==>
              HasKey(r.value.advancementFacts, AdvancementKey, AdvancementKey(x))
    ensures r.Ok? && UniqueKeys(db.advancementFacts, AdvancementKey) ==> UniqueKeys(r.value.advancementFacts, AdvancementKey)
  {
    var rows :- AdvancementRows(o, adv, lib);
    Ok(db.(advancementFacts := InsertAll(db.advancementFacts, AdvancementKey, rows)))
  }

  // ------------------------------------------------ replay and invariants

  /** Replaying the stat explosion of a snapshot (a partial retry) adds no
      row: every key it would insert is already present. */
  lemma ExplodeStatsReplay(db: Db, o: Origin, statsJson: Value, lib: Lib)
    requires ExplodeStats(db, o, statsJson, lib).Ok?
    ensures ExplodeStats(ExplodeStats(db, o, statsJson, lib).value, o, statsJson, lib)
            == ExplodeStats(db, o, statsJson, lib)
  {
    InsertAllIdempotent(db.statFacts, StatKey, StatRows(o, statsJson, lib).value);
  }

  /** Replaying the advancement explosion of a snapshot adds no row. */
  lemma ExplodeAdvancementsReplay(db: Db, o: Origin, adv: Option<Value>, lib: Lib)
    requires ExplodeAdvancements(db, o, adv, lib).Ok?
    ensures ExplodeAdvancements(ExplodeAdvancements(db, o, adv, lib).value, o, adv, lib)
            == ExplodeAdvancements(db, o, adv, lib)
  {
    InsertAllIdempotent(db.advancementFacts, AdvancementKey, AdvancementRows(o, adv, lib).value);
  }

  /** Stat explosion for an existing snapshot keeps the schema's constraints:
      at most one fact per (snapshot, category, stat key), each agreeing with
      its snapshot. */
  lemma ExplodeStatsValid(db: Db, o: Origin, statsJson: Value, lib: Lib)
    requires Valid(db) && HasKey(db.snapshots, SnapshotOrigin, o)
    requires ExplodeStats(db, o, statsJson, lib).Ok?
    ensures Valid(ExplodeStats(db, o, statsJson, lib).value)
  {
    var rows := StatRows(o, statsJson, lib).value;
    var facts := InsertAll(db.statFacts, StatKey, rows);
    forall i | 0 <= i < |facts| ensures HasKey(db.snapshots, SnapshotOrigin, StatOrigin(facts[i])) {
      if i >= |db.statFacts| {
        assert facts[i] in rows;
      } else {
        assert facts[i] == db.statFacts[i];
      }
    }
  }

  /** Advancement explosion for an existing snapshot keeps the schema's
      constraints: at most one fact per (snapshot, advancement key), each
      agreeing with its snapshot. */
  lemma ExplodeAdvancementsValid(db: Db, o: Origin, adv: Option<Value>, lib: Lib)
    requires Valid(db) && HasKey(db.snapshots, SnapshotOrigin, o)
    requires ExplodeAdvancements(db, o, adv, lib).Ok?
    ensures Valid(ExplodeAdvancements(db, o, adv, lib).value)
  {
    var rows := AdvancementRows(o, adv, lib).value;
    var facts := InsertAll(db.advancementFacts, AdvancementKey, rows);
    forall i | 0 <= i < |facts| ensures HasKey(db.snapshots, SnapshotOrigin, AdvancementOrigin(facts[i])) {
      if i >= |db.advancementFacts| {
        assert facts[i] in rows;
      } else {
        assert facts[i] == db.advancementFacts[i];
      }
    }
  }

  // ------------------------------------------- explosion into a new snapshot

  /** The reference reading of one stat of a whole statistics document:
      `int(stats_json["stats"][category][key])` when every step exists. */
  function DocumentStatValue(statsJson: Value, category: string, key: string, toInt: Value -> Option<int>): Option<int> {
    match statsJson
    case Object(top) =>
      (match Lookup(top, "stats")
       case Some(Object(cats)) => StatValue(cats, category, key, toInt)
       case _ => None)
    case _ => None
  }

  /** The reference reading of one advancement of a whole advancements
      document: none unless the document is a truthy object. */
  function DocumentAdvancementReading(adv: Option<Value>, key: string, parse: string -> Option<Timestamp>): Option<(bool, Option<Timestamp>)> {
    if Present(adv) && adv.value.Object? then AdvancementReading(adv.value.fields, key, parse) else None
  }

  /** A member of a well-formed object is well formed. */
  lemma MemberWellFormed(fs: seq<Field>, k: string)
    requires WellFormed(Object(fs)) && Lookup(fs, k).Some?
    ensures WellFormed(Lookup(fs, k).value)
  {
    var i :| 0 <= i < |fs| && fs[i] == Field(k, Lookup(fs, k).value);
  }

  /** The stat rows of a well-formed document never repeat a conflict key. */
  lemma StatRowsDistinct(o: Origin, statsJson: Value, lib: Lib)
    requires WellFormed(statsJson) && StatRows(o, statsJson, lib).Ok?
    ensures UniqueKeys(StatRows(o, statsJson, lib).value, StatKey)
  {
    var top := statsJson.fields;
    if Lookup(top, "stats").Some? {
      MemberWellFormed(top, "stats");
      StatRowsUnique(o, Lookup(top, "stats").value.fields, lib.toInt);
    }
  }

  /** Rows of a snapshot that has no stat fact conflict with no stored row. */
  lemma StatKeysFresh(facts: seq<StatFact>, rows: seq<StatFact>, id: nat)
    requires forall g :: g in facts ==> g.snapshotId != id
    requires forall x :: x in rows ==> x.snapshotId == id
    ensures forall x :: x in rows ==> !HasKey(facts, StatKey, StatKey(x))
  {
    forall x | x in rows ensures !HasKey(facts, StatKey, StatKey(x)) {
      assert forall j :: 0 <= j < |facts| ==> StatKey(facts[j]).0 != x.snapshotId by {
        assert forall j :: 0 <= j < |facts| ==> facts[j] in facts;
      }
    }
  }

  /** Rows of a snapshot that has no advancement fact conflict with no stored
      row. */
  lemma AdvancementKeysFresh(facts: seq<AdvancementFact>, rows: seq<AdvancementFact>, id: nat)
    requires forall g :: g in facts ==> g.snapshotId != id
    requires forall x :: x in rows ==> x.snapshotId == id
    ensures forall x :: x in rows ==> !HasKey(facts, AdvancementKey, AdvancementKey(x))
  {
    forall x | x in rows ensures !HasKey(facts, AdvancementKey, AdvancementKey(x)) {
      assert forall j :: 0 <= j < |facts| ==> AdvancementKey(facts[j]).0 != x.snapshotId by {
        assert forall j :: 0 <= j < |facts| ==> facts[j] in facts;
      }
    }
  }

  /** Exploding the statistics of a snapshot that has no stat fact yet
      appends every built row, in order: none is lost to a conflict. */
  lemma ExplodeStatsFresh(db: Db, o: Origin, statsJson: Value, lib: Lib)
    requires WellFormed(statsJson)
    requires forall g :: g in db.statFacts ==> g.snapshotId != o.snapshotId
    requires ExplodeStats(db, o, statsJson, lib).Ok?
    ensures ExplodeStats(db, o, statsJson, lib).value
            == db.(statFacts := db.statFacts + StatRows(o, statsJson, lib).value)
  {
    var rows := StatRows(o, statsJson, lib).value;
    assert InsertAll(db.statFacts, StatKey, rows) == db.statFacts + rows by {
      StatRowsDistinct(o, statsJson, lib);
      StatKeysFresh(db.statFacts, rows, o.snapshotId);
      InsertAllFresh(db.statFacts, StatKey, rows);
    }
  }

  /** `explode_stats` against its reference reading: after exploding a
      snapshot that has no stat fact yet, a row is in the table exactly when
      it was there before or it is that snapshot's reading of a convertible
      stat. */
  lemma ExplodeStatsExact(db: Db, o: Origin, statsJson: Value, lib: Lib, f: StatFact)
    requires WellFormed(statsJson)
    requires forall g :: g in db.statFacts ==> g.snapshotId != o.snapshotId
    requires ExplodeStats(db, o, statsJson, lib).Ok?
    ensures f in ExplodeStats(db, o, statsJson, lib).value.statFacts <==>
              f in db.statFacts
              || (StatOrigin(f) == o && DocumentStatValue(statsJson, f.category, f.statKey, lib.toInt) == Some(f.value))
  {
    ExplodeStatsFresh(db, o, statsJson, lib);
    var top := statsJson.fields;
    match Lookup(top, "stats")
    case Some(Object(cats)) =>
      MemberWellFormed(top, "stats");
      StatRowsExact(o, cats, lib.toInt, f);
    case _ =>
  }

  /** The advancement rows of a well-formed document never repeat a conflict
      key. */
  lemma AdvancementRowsDistinct(o: Origin, adv: Option<Value>, lib: Lib)
    requires adv.Some? ==> WellFormed(adv.value)
    requires AdvancementRows(o, adv, lib).Ok?
    ensures UniqueKeys(AdvancementRows(o, adv, lib).value, AdvancementKey)
  {
    if Present(adv) && adv.value.Object? {
      AdvRowsUnique(o, adv.value.fields, lib.fromIsoFormat);
    }
  }

  /** Exploding the advancements of a snapshot that has no advancement fact
      yet appends every built row, in order. */
  lemma ExplodeAdvancementsFresh(db: Db, o: Origin, adv: Option<Value>, lib: Lib)
    requires adv.Some? ==> WellFormed(adv.value)
    requires forall g :: g in db.advancementFacts ==> g.snapshotId != o.snapshotId
    requires ExplodeAdvancements(db, o, adv, lib).Ok?
    ensures ExplodeAdvancements(db, o, adv, lib).value
            == db.(advancementFacts := db.advancementFacts + AdvancementRows(o, adv, lib).value)
  {
    var rows := AdvancementRows(o, adv, lib).value;
    assert InsertAll(db.advancementFacts, AdvancementKey, rows) == db.advancementFacts + rows by {
      AdvancementRowsDistinct(o, adv, lib);
      AdvancementKeysFresh(db.advancementFacts, rows, o.snapshotId);
      InsertAllFresh(db.advancementFacts, AdvancementKey, rows);
    }
  }

  /** `explode_advancements` against its reference reading: after exploding
      a snapshot that has no advancement fact yet, a row is in the table
      exactly when it was there before or it is that snapshot's reading of an
      advancement whose payload is an object. */
  lemma ExplodeAdvancementsExact(db: Db, o: Origin, adv: Option<Value>, lib: Lib, f: AdvancementFact)
    requires adv.Some? ==> WellFormed(adv.value)
    requires forall g :: g in db.advancementFacts ==> g.snapshotId != o.snapshotId
    requires ExplodeAdvancements(db, o, adv, lib).Ok?
    ensures f in ExplodeAdvancements(db, o, adv, lib).value.advancementFacts <==>
              f in db.advancementFacts
              || (AdvancementOrigin(f) == o
                  && DocumentAdvancementReading(adv, f.advancementKey, lib.fromIsoFormat) == Some((f.done, f.doneAt)))
  {
    ExplodeAdvancementsFresh(db, o, adv, lib);
    if Present(adv) && adv.value.Object? {
      AdvRowsExact(o, adv.value.fields, lib.fromIsoFormat, f);
    }
  }
}

=== FILE: json.dfy ===
/** JSON documents as `json.loads` produces them: objects keep their members
    in insertion order (a Python dict), and the keys of one object are
    distinct once the document is well formed. */
module Json {
  import opened Wrappers

  datatype Value =
    | Null
    | Bool(b: bool)
    | Int(i: int)
      /** A float, carried as the text `json.dumps` writes for it: Python's
          `repr` for a finite float, `NaN`, `Infinity` or `-Infinity`
          otherwise. */
    | Float(text: string)
    | Str(s: string)
    | Array(items: seq<Value>)
    | Object(fields: seq<Field>)

  datatype Field = Field(key: string, value: Value)

  /** The keys of an object's members. */
  function Keys(fs: seq<Field>): set<string> {
    set f | f in fs :: f.key
  }

  predicate DistinctKeys(fs: seq<Field>) {
    forall i, j :: 0 <= i < j < |fs| ==> fs[i].key != fs[j].key
  }

  /** Every object, at every nesting level, has distinct keys: what a Python
      dict guarantees. */
  predicate WellFormed(v: Value)
    decreases v
  {
    match v
    case Array(xs) => forall i :: 0 <= i < |xs| ==> WellFormed(xs[i])
    case Object(fs) => DistinctKeys(fs) && forall i :: 0 <= i < |fs| ==> WellFormed(fs[i].value)
    case _ => true
  }

  /** `d.get(k)`: the value of the first member with key `k`. */
  function Lookup(fs: seq<Field>, k: string): (r: Option<Value>)
    ensures r.Some? <==> k in Keys(fs)
    ensures r.Some? ==> Field(k, r.value) in fs
    ensures r.Some? && DistinctKeys(fs) ==>
              forall i :: 0 <= i < |fs| && fs[i].key == k ==> fs[i].value == r.value
  {
    if |fs| == 0 then None
    else if fs[0].key == k then Some(fs[0].value)
    else
      assert Keys(fs) == {fs[0].key} + Keys(fs[1..]) by {
        assert forall f :: f in fs <==> f == fs[0] || f in fs[1..];
      }
      Lookup(fs[1..], k)
  }

  /** Python truthiness (`bool(x)`, `if x:`) of a decoded JSON value. */
  predicate Truthy(v: Value) {
    match v
    case Null => false
    case Bool(b) => b
    case Int(i) => i != 0
    case Float(r) => r != "0.0" && r != "-0.0"
    case Str(s) => |s| > 0
    case Array(xs) => |xs| > 0
    case Object(fs) => |fs| > 0
  }

  /** Truthiness of a value that may be Python's `None`. */
  predicate Present(v: Option<Value>) {
    v.Some? && Truthy(v.value)
  }

  /** The falsy values are exactly Python's: `None`, `False`, zero, and the
      empty string, list and dict; a missing value is never present. */
  lemma Falsy(v: Value)
    ensures !Truthy(v) <==>
              || v == Null || v == Bool(false) || v == Int(0) || v == Float("0.0") || v == Float("-0.0")
              || v == Str("") || v == Array([]) || v == Object([])
    ensures Present(Some(v)) <==> Truthy(v)
    ensures !Present(None)
  {
  }
}

=== FILE: pipeline.dfy ===
/** One ingest run: resolve the server, record the run, process each
    statistics file in turn (upsert the player, admit the snapshot, and only
    for an admitted snapshot explode its facts), then mark the run finished.
    Every file is its own transaction: an exception rolls back the current
    file and ends the run without its finish mark. */
module Pipeline {
  import opened Wrappers
  import opened Json
  import opened Externals
  import opened Tables
  import opened Store
  import opened Facts
  import Canonical

  /** What the run reads for one player: `stats` is `None` when the
      statistics file could not be read or decoded (the file is skipped);
      `adv` is `None` when there is no advancements directory, no file for
      this uuid, or it could not be decoded. `observedAt` is the statistics
      file's modification time. */
  datatype InputFile = InputFile(uuid: string, stats: Option<Value>, adv: Option<Value>, observedAt: Instant)

  /** The facts of an admitted snapshot: `explode_stats`, then
      `explode_advancements`, in the file's transaction. */
  function ExplodeSnapshot(db: Db, o: Origin, stats: Value, adv: Option<Value>, lib: Lib): (r: Result<Db, Fault>)
    ensures r.Err? <==> StatRows(o, stats, lib).Err? || AdvancementRows(o, adv, lib).Err?
    ensures r.Ok? ==> r.value == db.(statFacts := r.value.statFacts, advancementFacts := r.value.advancementFacts)
  {
    var db3 :- ExplodeStats(db, o, stats, lib);
    ExplodeAdvancements(db3, o, adv, lib)
  }

  /** For a snapshot with no facts yet, every built stat and advancement row
      is appended. */
  lemma ExplodeSnapshotFresh(db: Db, o: Origin, stats: Value, adv: Option<Value>, lib: Lib)
    requires WellFormed(stats) && (adv.Some? ==> WellFormed(adv.value))
    requires forall g :: g in db.statFacts ==> g.snapshotId != o.snapshotId
    requires forall g :: g in db.advancementFacts ==> g.snapshotId != o.snapshotId
    requires ExplodeSnapshot(db, o, stats, adv, lib).Ok?
    ensures ExplodeSnapshot(db, o, stats, adv, lib).value.statFacts == db.statFacts + StatRows(o, stats, lib).value
    ensures ExplodeSnapshot(db, o, stats, adv, lib).value.advancementFacts
            == db.advancementFacts + AdvancementRows(o, adv, lib).value
  {
    ExplodeStatsFresh(db, o, stats, lib);
    var db3 := ExplodeStats(db, o, stats, lib).value;
    ExplodeAdvancementsFresh(db3, o, adv, lib);
  }

  /** Exploding the facts of a stored snapshot keeps every constraint. */
  lemma ExplodeSnapshotValid(db: Db, o: Origin, stats: Value, adv: Option<Value>, lib: Lib)
    requires Valid(db) && HasKey(db.snapshots, SnapshotOrigin, o)
    requires ExplodeSnapshot(db, o, stats, adv, lib).Ok?
    ensures Valid(ExplodeSnapshot(db, o, stats, adv, lib).value)
  {
    ExplodeStatsValid(db, o, stats, lib);
    var db3 := ExplodeStats(db, o, stats, lib).value;
    ExplodeAdvancementsValid(db3, o, adv, lib);
  }

  /** The body of the per-file loop: `Ok` with the committed state, or the
      exception that aborts the run (the file's writes are rolled back). */
  function IngestFile(db: Db, lib: Lib, serverId: nat, ingestId: nat, file: InputFile): (r: Result<Db, Fault>)
    ensures file.stats.None? ==> r == Ok(db)
    ensures r.Ok? ==> r.value.servers == db.servers && r.value.ingests == db.ingests
    ensures r.Ok? ==> db.players <= r.value.players && |r.value.players| <= |db.players| + 1
    ensures r.Ok? ==> db.snapshots <= r.value.snapshots && |r.value.snapshots| <= |db.snapshots| + 1
    ensures r.Ok? ==> db.statFacts <= r.value.statFacts && db.advancementFacts <= r.value.advancementFacts
    ensures r.Ok? && |r.value.snapshots| == |db.snapshots| ==>
              r.value.statFacts == db.statFacts && r.value.advancementFacts == db.advancementFacts
  {
    if file.stats.None? then Ok(db)
    else
      var (db1, playerId) := UpsertPlayer(db, file.uuid);
      var (db2, snapshotId) := InsertSnapshot(db1, lib, ingestId, serverId, playerId, file.observedAt, file.stats.value, file.adv);
      // Python's `if snapshot_id:` is false for None and for 0 alike.
      if snapshotId.Some? && snapshotId.value != 0 then
        var o := Origin(snapshotId.value, playerId, serverId, file.observedAt);
        ExplodeSnapshot(db2, o, file.stats.value, file.adv, lib)
      else
        Ok(db2)
  }

  /** A file whose snapshot is admitted gets all of its facts: the step
      raises exactly when building the stat rows or the advancement rows
      raises, and otherwise the new snapshot row and every built fact row are
      appended, so a fact is stored exactly when it was stored before or it
      is the new snapshot's reading of the documents. The documents are
      decoded JSON, so their objects have distinct keys. */
  lemma IngestFileFacts(db: Db, lib: Lib, serverId: nat, ingestId: nat, file: InputFile)
    requires Valid(db)
    requires file.stats.Some? && WellFormed(file.stats.value)
    requires file.adv.Some? ==> WellFormed(file.adv.value)
    requires !HasKey(db.snapshots, SnapshotKey,
                     (serverId, UpsertPlayer(db, file.uuid).1, Canonical.Sha256Json(lib.sha256, file.stats.value)))
    ensures var playerId := UpsertPlayer(db, file.uuid).1;
            var o := Origin(db.nextSnapshotId, playerId, serverId, file.observedAt);
            var r := IngestFile(db, lib, serverId, ingestId, file);
            && (r.Err? <==> StatRows(o, file.stats.value, lib).Err? || AdvancementRows(o, file.adv, lib).Err?)
            && (r.Ok? ==>
                  && r.value.snapshots == db.snapshots + [NewSnapshot(lib, db.nextSnapshotId, ingestId, serverId, playerId,
                                                                      file.observedAt, file.stats.value, file.adv)]
                  && r.value.statFacts == db.statFacts + StatRows(o, file.stats.value, lib).value
                  && r.value.advancementFacts == db.advancementFacts + AdvancementRows(o, file.adv, lib).value)
  {
    var (db1, playerId) := UpsertPlayer(db, file.uuid);
    var (db2, snapshotId) := InsertSnapshot(db1, lib, ingestId, serverId, playerId, file.observedAt, file.stats.value, file.adv);
    assert snapshotId == Some(db.nextSnapshotId) && db.nextSnapshotId != 0 by {
      assert Valid(db1);
    }
    var o := Origin(db.nextSnapshotId, playerId, serverId, file.observedAt);
    assert db2.statFacts == db.statFacts && db2.advancementFacts == db.advancementFacts;
    if ExplodeSnapshot(db2, o, file.stats.value, file.adv, lib).Ok? {
      NextSnapshotHasNoFacts(db);
      ExplodeSnapshotFresh(db2, o, file.stats.value, file.adv, lib);
    }
  }

  /** The stat facts after a file whose snapshot is admitted, against the
      reference reading of its statistics document. */
  lemma IngestFileStatFacts(db: Db, lib: Lib, serverId: nat, ingestId: nat, file: InputFile, f: StatFact)
    requires Valid(db)
    requires file.stats.Some? && WellFormed(file.stats.value)
    requires file.adv.Some? ==> WellFormed(file.adv.value)
    requires !HasKey(db.snapshots, SnapshotKey,
                     (serverId, UpsertPlayer(db, file.uuid).1, Canonical.Sha256Json(lib.sha256, file.stats.value)))
    requires IngestFile(db, lib, serverId, ingestId, file).Ok?
    ensures var o := Origin(db.nextSnapshotId, UpsertPlayer(db, file.uuid).1, serverId, file.observedAt);
            f in IngestFile(db, lib, serverId, ingestId, file).value.statFacts <==>
              f in db.statFacts
              || (StatOrigin(f) == o && DocumentStatValue(file.stats.value, f.category, f.statKey, lib.toInt) == Some(f.value))
  {
    var o := Origin(db.nextSnapshotId, UpsertPlayer(db, file.uuid).1, serverId, file.observedAt);
    var reading := StatOrigin(f) == o
                   && DocumentStatValue(file.stats.value, f.category, f.statKey, lib.toInt) == Some(f.value);
    IngestFileFacts(db, lib, serverId, ingestId, file);
    var rows := StatRows(o, file.stats.value, lib).value;
    assert f in db.statFacts + rows <==> f in db.statFacts || reading by {
      NextSnapshotHasNoFacts(db);
      ExplodeStatsFresh(db, o, file.stats.value, lib);
      ExplodeStatsExact(db, o, file.stats.value, lib, f);
    }
  }

  /** The advancement facts after a file whose snapshot is admitted, against
      the reference reading of its advancements document. */
  lemma IngestFileAdvancementFacts(db: Db, lib: Lib, serverId: nat, ingestId: nat, file: InputFile, f: AdvancementFact)
    requires Valid(db)
    requires file.stats.Some? && WellFormed(file.stats.value)
    requires file.adv.Some? ==> WellFormed(file.adv.value)
    requires !HasKey(db.snapshots, SnapshotKey,
                     (serverId, UpsertPlayer(db, file.uuid).1, Canonical.Sha256Json(lib.sha256, file.stats.value)))
    requires IngestFile(db, lib, serverId, ingestId, file).Ok?
    ensures var o := Origin(db.nextSnapshotId, UpsertPlayer(db, file.uuid).1, serverId, file.observedAt);
            f in IngestFile(db, lib, serverId, ingestId, file).value.advancementFacts <==>
              f in db.advancementFacts
              || (AdvancementOrigin(f) == o
                  && DocumentAdvancementReading(file.adv, f.advancementKey, lib.fromIsoFormat) == Some((f.done, f.doneAt)))
  {
    var o := Origin(db.nextSnapshotId, UpsertPlayer(db, file.uuid).1, serverId, file.observedAt);
    var reading := AdvancementOrigin(f) == o
                   && DocumentAdvancementReading(file.adv, f.advancementKey, lib.fromIsoFormat) == Some((f.done, f.doneAt));
    IngestFileFacts(db, lib, serverId, ingestId, file);
    var rows := AdvancementRows(o, file.adv, lib).value;
    assert f in db.advancementFacts + rows <==> f in db.advancementFacts || reading by {
      NextSnapshotHasNoFacts(db);
      ExplodeAdvancementsFresh(db, o, file.adv, lib);
      ExplodeAdvancementsExact(db, o, file.adv, lib, f);
    }
  }

  /** The files of a run in order, stopping at the first exception: the
      state committed so far and the exception, if any. */
  function IngestFiles(db: Db, lib: Lib, serverId: nat, ingestId: nat, files: seq<InputFile>): (r: (Db, Option<Fault>))
    ensures r.0.servers == db.servers && r.0.ingests == db.ingests
    ensures db.players <= r.0.players && db.snapshots <= r.0.snapshots
    ensures db.statFacts <= r.0.statFacts && db.advancementFacts <= r.0.advancementFacts
    decreases |files|
  {
    if |files| == 0 then (db, None)
    else
      match IngestFile(db, lib, serverId, ingestId, files[0])
      case Err(e) => (db, Some(e))
      case Ok(db1) => IngestFiles(db1, lib, serverId, ingestId, files[1..])
  }

  datatype RunOutcome =
    | ConfigError(error: ServerError)
    | Crashed(ingestId: nat, fault: Fault)
    | Finished(ingestId: nat)

  /** The source label every run of this ingester records. */
  const Source: string := "vanilla-json"

  /** `main` from the server lookup on: an unknown server code writes
      nothing; otherwise a run row is created, the files are processed, and
      the run is marked finished unless a file raised. `notes` is the
      statistics directory; `startedAt` and `finishedAt` are the database
      clock at the two writes. */
  function Run(db: Db, lib: Lib, serverCode: string, notes: string, files: seq<InputFile>,
               startedAt: Instant, finishedAt: Instant): (r: (Db, RunOutcome))
    ensures GetServerId(db, serverCode).Err? <==> r.1.ConfigError?
    ensures r.0.servers == db.servers
    ensures r.1.ConfigError? ==> r.0 == db
    ensures !r.1.ConfigError? ==> |r.0.ingests| == |db.ingests| + 1
    ensures r.1.Finished? ==> r.0.ingests[|db.ingests|].finishedAt == Some(finishedAt)
    ensures r.1.Crashed? ==> r.0.ingests[|db.ingests|].finishedAt == None
    ensures !r.1.ConfigError? ==> r.0.ingests[|db.ingests|].source == Source
    ensures r.1.Crashed? <==>
              && GetServerId(db, serverCode).Ok?
              && var serverId := GetServerId(db, serverCode).value;
                 var (db1, ingestId) := CreateIngest(db, serverId, Source, Some(notes), startedAt);
                 IngestFiles(db1, lib, serverId, ingestId, files).1.Some?
    ensures r.1.Crashed? ==>
              var serverId := GetServerId(db, serverCode).value;
              var (db1, ingestId) := CreateIngest(db, serverId, Source, Some(notes), startedAt);
              && r.1.ingestId == ingestId
              && Some(r.1.fault) == IngestFiles(db1, lib, serverId, ingestId, files).1
    ensures Valid(db) ==> r.0.ingests[..|db.ingests|] == db.ingests
  {
    match GetServerId(db, serverCode)
    case Err(e) => (db, ConfigError(e))
    case Ok(serverId) =>
      var (db1, ingestId) := CreateIngest(db, serverId, Source, Some(notes), startedAt);
      var (db2, fault) := IngestFiles(db1, lib, serverId, ingestId, files);
      match fault
      case Some(e) => (db2, Crashed(ingestId, e))
      case None =>
        var db3 := FinishIngest(db2, ingestId, finishedAt);
        assert db2.ingests[|db.ingests|].id == ingestId;
        (db3, Finished(ingestId))
  }

  // --------------------------------------------------------- invariants

  /** Processing one file keeps the schema's constraints. */
  lemma IngestFileValid(db: Db, lib: Lib, serverId: nat, ingestId: nat, file: InputFile)
    requires Valid(db)
    requires HasKey(db.servers, ServerId, serverId) && HasKey(db.ingests, IngestId, ingestId)
    requires IngestFile(db, lib, serverId, ingestId, file).Ok?
    ensures Valid(IngestFile(db, lib, serverId, ingestId, file).value)
  {
    if file.stats.Some? {
      var (db1, playerId) := UpsertPlayer(db, file.uuid);
      var i :| 0 <= i < |db1.players| && db1.players[i] == Player(playerId, file.uuid);
      assert PlayerId(db1.players[i]) == playerId;
      InsertSnapshotValid(db1, lib, ingestId, serverId, playerId, file.observedAt, file.stats.value, file.adv);
      var (db2, snapshotId) := InsertSnapshot(db1, lib, ingestId, serverId, playerId, file.observedAt, file.stats.value, file.adv);
      // The same `if snapshot_id:` test as in IngestFile.
      if snapshotId.Some? && snapshotId.value != 0 {
        var o := Origin(snapshotId.value, playerId, serverId, file.observedAt);
        assert HasKey(db2.snapshots, SnapshotOrigin, o) by {
          assert SnapshotOrigin(db2.snapshots[|db1.snapshots|]) == o;
        }
        ExplodeSnapshotValid(db2, o, file.stats.value, file.adv, lib);
      }
    }
  }

  /** Every fact a file adds belongs to the snapshot that file admitted. */
  lemma NewFactsBelongToNewSnapshot(db: Db, lib: Lib, serverId: nat, ingestId: nat, file: InputFile)
    requires IngestFile(db, lib, serverId, ingestId, file).Ok?
    ensures var db' := IngestFile(db, lib, serverId, ingestId, file).value;
            && (forall i :: |db.statFacts| <= i < |db'.statFacts| ==>
                  |db'.snapshots| == |db.snapshots| + 1 && StatOrigin(db'.statFacts[i]) == SnapshotOrigin(db'.snapshots[|db.snapshots|]))
            && (forall i :: |db.advancementFacts| <= i < |db'.advancementFacts| ==>
                  |db'.snapshots| == |db.snapshots| + 1 && AdvancementOrigin(db'.advancementFacts[i]) == SnapshotOrigin(db'.snapshots[|db.snapshots|]))
  {
    if file.stats.Some? {
      var (db1, playerId) := UpsertPlayer(db, file.uuid);
      var (db2, snapshotId) := InsertSnapshot(db1, lib, ingestId, serverId, playerId, file.observedAt, file.stats.value, file.adv);
      // The same `if snapshot_id:` test as in IngestFile.
      if snapshotId.Some? && snapshotId.value != 0 {
        var o := Origin(snapshotId.value, playerId, serverId, file.observedAt);
        assert SnapshotOrigin(db2.snapshots[|db1.snapshots|]) == o;
        var db3 := ExplodeStats(db2, o, file.stats.value, lib).value;
        var db4 := ExplodeAdvancements(db3, o, file.adv, lib).value;
        forall i | |db.statFacts| <= i < |db4.statFacts| ensures StatOrigin(db4.statFacts[i]) == o {
          assert db4.statFacts[i] in StatRows(o, file.stats.value, lib).value;
        }
        forall i | |db.advancementFacts| <= i < |db4.advancementFacts| ensures AdvancementOrigin(db4.advancementFacts[i]) == o {
          assert db4.advancementFacts[i] in AdvancementRows(o, file.adv, lib).value;
        }
      }
    }
  }

  /** Processing a run's files keeps the schema's constraints. */
  lemma {:induction false} IngestFilesValid(db: Db, lib: Lib, serverId: nat, ingestId: nat, files: seq<InputFile>)
    requires Valid(db)
    requires HasKey(db.servers, ServerId, serverId) && HasKey(db.ingests, IngestId, ingestId)
    ensures Valid(IngestFiles(db, lib, serverId, ingestId, files).0)
    decreases |files|
  {
    if |files| > 0 && IngestFile(db, lib, serverId, ingestId, files[0]).Ok? {
      IngestFileValid(db, lib, serverId, ingestId, files[0]);
      IngestFilesValid(IngestFile(db, lib, serverId, ingestId, files[0]).value, lib, serverId, ingestId, files[1..]);
    }
  }

  /** A whole run, finished or not, keeps the schema's constraints. */
  lemma RunValid(db: Db, lib: Lib, serverCode: string, notes: string, files: seq<InputFile>,
                 startedAt: Instant, finishedAt: Instant)
    requires Valid(db)
    ensures Valid(Run(db, lib, serverCode, notes, files, startedAt, finishedAt).0)
  {
    if GetServerId(db, serverCode).Ok? {
      var serverId := GetServerId(db, serverCode).value;
      var i :| 0 <= i < |db.servers| && db.servers[i] == Server(serverId, serverCode);
      assert ServerId(db.servers[i]) == serverId;
      var (db1, ingestId) := CreateIngest(db, serverId, Source, Some(notes), startedAt);
      assert IngestId(db1.ingests[|db.ingests|]) == ingestId;
      IngestFilesValid(db1, lib, serverId, ingestId, files);
    }
  }

  // -------------------------------------------------------- idempotence

  /** The file's content is already in the store: its player exists and a
      snapshot with its (server, player, statistics hash) exists. */
  predicate Absorbed(db: Db, lib: Lib, serverId: nat, file: InputFile) {
    file.stats.Some? ==>
      && FindPlayer(db.players, file.uuid).Some?
      && HasKey(db.snapshots, SnapshotKey,
                (serverId, FindPlayer(db.players, file.uuid).value, Canonical.Sha256Json(lib.sha256, file.stats.value)))
  }

  /** Processing an absorbed file, in any run, changes nothing at all. */
  lemma AbsorbedIsNoop(db: Db, lib: Lib, serverId: nat, ingestId: nat, file: InputFile)
    requires Absorbed(db, lib, serverId, file)
    ensures IngestFile(db, lib, serverId, ingestId, file) == Ok(db)
  {
  }

  /** After a file is processed its content is absorbed. */
  lemma IngestFileAbsorbs(db: Db, lib: Lib, serverId: nat, ingestId: nat, file: InputFile)
    requires IngestFile(db, lib, serverId, ingestId, file).Ok?
    ensures Absorbed(IngestFile(db, lib, serverId, ingestId, file).value, lib, serverId, file)
  {
    if file.stats.Some? {
      var (db1, playerId) := UpsertPlayer(db, file.uuid);
      if !HasKey(db.players, PlayerUuid, file.uuid) {
        FindPlayerLast(db.players, Player(playerId, file.uuid));
      }
      assert FindPlayer(db1.players, file.uuid) == Some(playerId);
      var key := (serverId, playerId, Canonical.Sha256Json(lib.sha256, file.stats.value));
      var (db2, snapshotId) := InsertSnapshot(db1, lib, ingestId, serverId, playerId, file.observedAt, file.stats.value, file.adv);
      assert Absorbed(db2, lib, serverId, file) by {
        if !HasKey(db1.snapshots, SnapshotKey, key) {
          assert SnapshotKey(db2.snapshots[|db1.snapshots|]) == key;
        }
      }
      var r := IngestFile(db, lib, serverId, ingestId, file).value;
      assert r.players == db2.players && r.snapshots == db2.snapshots by {
        if snapshotId.Some? && snapshotId.value != 0 {
          var o := Origin(snapshotId.value, playerId, serverId, file.observedAt);
          var db3 := ExplodeStats(db2, o, file.stats.value, lib).value;
          assert db3.players == db2.players && db3.snapshots == db2.snapshots;
        }
      }
    }
  }

  /** Absorbed content stays absorbed as the tables grow. */
  lemma AbsorbedGrows(db: Db, db': Db, lib: Lib, serverId: nat, file: InputFile)
    requires Absorbed(db, lib, serverId, file)
    requires db.players <= db'.players && db.snapshots <= db'.snapshots
    ensures Absorbed(db', lib, serverId, file)
  {
    if file.stats.Some? {
      FindPlayerPrefix(db.players, db'.players, file.uuid);
      HasKeyGrows(db.snapshots, db'.snapshots, SnapshotKey,
                  (serverId, FindPlayer(db.players, file.uuid).value, Canonical.Sha256Json(lib.sha256, file.stats.value)));
    }
  }

  /** Processing a single file a second time adds nothing, even under another
      run: the snapshot is deduplicated, so no fact is exploded again. */
  lemma IngestFileIdempotent(db: Db, lib: Lib, serverId: nat, ingestId: nat, ingestId2: nat, file: InputFile)
    requires IngestFile(db, lib, serverId, ingestId, file).Ok?
    ensures var db1 := IngestFile(db, lib, serverId, ingestId, file).value;
            IngestFile(db1, lib, serverId, ingestId2, file) == Ok(db1)
  {
    IngestFileAbsorbs(db, lib, serverId, ingestId, file);
    AbsorbedIsNoop(IngestFile(db, lib, serverId, ingestId, file).value, lib, serverId, ingestId2, file);
  }

  /** A run's files that all went through are all absorbed afterwards. */
  lemma {:induction false} IngestFilesAbsorbs(db: Db, lib: Lib, serverId: nat, ingestId: nat, files: seq<InputFile>)
    requires IngestFiles(db, lib, serverId, ingestId, files).1.None?
    ensures forall f :: f in files ==> Absorbed(IngestFiles(db, lib, serverId, ingestId, files).0, lib, serverId, f)
    decreases |files|
  {
    if |files| > 0 {
      var db1 := IngestFile(db, lib, serverId, ingestId, files[0]).value;
      var r := IngestFiles(db, lib, serverId, ingestId, files);
      assert r == IngestFiles(db1, lib, serverId, ingestId, files[1..]);
      IngestFileAbsorbs(db, lib, serverId, ingestId, files[0]);
      AbsorbedGrows(db1, r.0, lib, serverId, files[0]);
      IngestFilesAbsorbs(db1, lib, serverId, ingestId, files[1..]);
      assert forall f :: f in files ==> f == files[0] || f in files[1..];
    }
  }

  /** Files that are all absorbed go through without any change. */
  lemma {:induction false} AllAbsorbedIsNoop(db: Db, lib: Lib, serverId: nat, ingestId: nat, files: seq<InputFile>)
    requires forall f :: f in files ==> Absorbed(db, lib, serverId, f)
    ensures IngestFiles(db, lib, serverId, ingestId, files) == (db, None)
    decreases |files|
  {
    if |files| > 0 {
      assert files[0] in files;
      AbsorbedIsNoop(db, lib, serverId, ingestId, files[0]);
      assert forall f :: f in files[1..] ==> f in files;
      AllAbsorbedIsNoop(db, lib, serverId, ingestId, files[1..]);
    }
  }

  /** After a finished run every one of its files is absorbed. */
  lemma FinishedRunAbsorbs(db: Db, lib: Lib, serverCode: string, notes: string, files: seq<InputFile>,
                           startedAt: Instant, finishedAt: Instant)
    requires Run(db, lib, serverCode, notes, files, startedAt, finishedAt).1.Finished?
    ensures GetServerId(db, serverCode).Ok?
    ensures forall f :: f in files ==>
              Absorbed(Run(db, lib, serverCode, notes, files, startedAt, finishedAt).0, lib, GetServerId(db, serverCode).value, f)
  {
    var serverId := GetServerId(db, serverCode).value;
    var (dbA, ingestId) := CreateIngest(db, serverId, Source, Some(notes), startedAt);
    var (dbB, fault) := IngestFiles(dbA, lib, serverId, ingestId, files);
    var db1 := FinishIngest(dbB, ingestId, finishedAt);
    assert db1 == Run(db, lib, serverCode, notes, files, startedAt, finishedAt).0;
    IngestFilesAbsorbs(dbA, lib, serverId, ingestId, files);
    forall f | f in files ensures Absorbed(db1, lib, serverId, f) {
      AbsorbedGrows(dbB, db1, lib, serverId, f);
    }
  }

  /** A run over files that are all absorbed finishes and adds only its run row. */
  lemma RunOverAbsorbed(db: Db, lib: Lib, serverCode: string, notes: string, files: seq<InputFile>,
                        startedAt: Instant, finishedAt: Instant)
    requires GetServerId(db, serverCode).Ok?
    requires forall f :: f in files ==> Absorbed(db, lib, GetServerId(db, serverCode).value, f)
    ensures var (db2, outcome) := Run(db, lib, serverCode, notes, files, startedAt, finishedAt);
            && outcome.Finished?
            && db2.players == db.players && db2.snapshots == db.snapshots
            && db2.statFacts == db.statFacts && db2.advancementFacts == db.advancementFacts
            && |db2.ingests| == |db.ingests| + 1
  {
    var serverId := GetServerId(db, serverCode).value;
    var (dbC, ingestId) := CreateIngest(db, serverId, Source, Some(notes), startedAt);
    forall f | f in files ensures Absorbed(dbC, lib, serverId, f) {
      AbsorbedGrows(db, dbC, lib, serverId, f);
    }
    AllAbsorbedIsNoop(dbC, lib, serverId, ingestId, files);
  }

  /** Re-running a finished run over the same files finishes too and adds no
      player, snapshot or fact row; the only new row is its own run row. */
  lemma RerunAddsNoRows(db: Db, lib: Lib, serverCode: string, notes: string, notes2: string, files: seq<InputFile>,
                        started1: Instant, finished1: Instant, started2: Instant, finished2: Instant)
    requires Run(db, lib, serverCode, notes, files, started1, finished1).1.Finished?
    ensures var db1 := Run(db, lib, serverCode, notes, files, started1, finished1).0;
            var (db2, outcome) := Run(db1, lib, serverCode, notes2, files, started2, finished2);
            && outcome.Finished?
            && db2.players == db1.players
            && db2.snapshots == db1.snapshots
            && db2.statFacts == db1.statFacts
            && db2.advancementFacts == db1.advancementFacts
            && |db2.ingests| == |db1.ingests| + 1
  {
    var db1 := Run(db, lib, serverCode, notes, files, started1, finished1).0;
    FinishedRunAbsorbs(db, lib, serverCode, notes, files, started1, finished1);
    assert GetServerId(db1, serverCode) == GetServerId(db, serverCode);
    RunOverAbsorbed(db1, lib, serverCode, notes2, files, started2, finished2);
  }
}

=== FILE: scenarios.dfy ===
/** Concrete documents, each with the rows or outcome the ingester's code
    gives for it. */
module Scenarios {
  import opened Wrappers
  import opened Json
  import opened Externals
  import opened Store
  import opened Facts

  /** `{"stats":{"custom":{"jump":"not-a-number"}}}` yields no stat fact and
      no exception. */
  lemma NonNumericStatSkipped(lib: Lib, o: Origin)
    requires lib.toInt(Str("not-a-number")) == None
    ensures StatRows(o, Object([Field("stats", Object([Field("custom", Object([Field("jump", Str("not-a-number"))]))]))]), lib)
            == Ok([])
  {
  }

  /** A `done` flag written as the string `"false"` is truthy, so the
      advancement counts as done; an empty string or `0` does not. */
  lemma StringFalseIsDone()
    ensures DoneFlag([Field("done", Str("false"))])
    ensures !DoneFlag([Field("done", Str(""))])
    ensures !DoneFlag([Field("done", Int(0))])
  {
  }

  /** `{"adv:example":{"done":true,"criteria":{"a":<ta>Z,"b":<tb>Z}}}`, with
      two UTC timestamps written in the `Z` form of the game's files, yields
      one fact, done, stamped with the later criterion. */
  lemma LatestCriterionIsDoneAt(lib: Lib, o: Origin, ta: string, tb: string, a: Timestamp, b: Timestamp)
    requires 'Z' !in ta && 'Z' !in tb
    requires lib.fromIsoFormat(ta + "+00:00") == Some(a)
    requires lib.fromIsoFormat(tb + "+00:00") == Some(b)
    requires a.aware && b.aware && a.instant < b.instant
    ensures AdvancementRows(o, Some(Object([Field("adv", Object([
                Field("done", Bool(true)),
                Field("criteria", Object([Field("a", Str(ta + "Z")), Field("b", Str(tb + "Z"))]))]))])), lib)
            == Ok([AdvancementFact(o.snapshotId, o.playerId, o.serverId, o.observedAt, "adv", true, Some(b))])
  {
    var crit := [Field("a", Str(ta + "Z")), Field("b", Str(tb + "Z"))];
    var payload := [Field("done", Bool(true)), Field("criteria", Object(crit))];
    UtcCriteriaParse(lib, ta, tb, a, b);
    assert MaxTimestamp([a, b]) == Ok(b);
    assert Lookup(payload, "criteria") == Some(Object(crit));
    assert DoneAt(payload, lib.fromIsoFormat) == Ok(Some(b));
    assert DoneFlag(payload);
    SingleAdvancement(o, "adv", payload, lib);
  }

  /** Both `Z`-suffixed criterion timestamps parse, in document order. */
  lemma UtcCriteriaParse(lib: Lib, ta: string, tb: string, a: Timestamp, b: Timestamp)
    requires 'Z' !in ta && 'Z' !in tb
    requires lib.fromIsoFormat(ta + "+00:00") == Some(a)
    requires lib.fromIsoFormat(tb + "+00:00") == Some(b)
    ensures ParsedTimes([Field("a", Str(ta + "Z")), Field("b", Str(tb + "Z"))], lib.fromIsoFormat) == [a, b]
  {
    var crit := [Field("a", Str(ta + "Z")), Field("b", Str(tb + "Z"))];
    UtcSuffix(ta);
    UtcSuffix(tb);
    assert ParsedTimes(crit[1..][1..], lib.fromIsoFormat) == [];
    assert ParsedTimes(crit[1..], lib.fromIsoFormat) == [b];
  }

  /** A document holding one advancement whose criteria can be ordered
      yields exactly that advancement's row. */
  lemma SingleAdvancement(o: Origin, key: string, payload: seq<Field>, lib: Lib)
    requires DoneAt(payload, lib.fromIsoFormat).Ok?
    ensures AdvancementRows(o, Some(Object([Field(key, Object(payload))])), lib)
            == Ok([AdvancementFact(o.snapshotId, o.playerId, o.serverId, o.observedAt, key,
                                   DoneFlag(payload), DoneAt(payload, lib.fromIsoFormat).value)])
  {
    var entries := [Field(key, Object(payload))];
    var row := AdvancementFact(o.snapshotId, o.playerId, o.serverId, o.observedAt, key,
                               DoneFlag(payload), DoneAt(payload, lib.fromIsoFormat).value);
    assert AdvRowsOf(o, entries[1..], lib.fromIsoFormat) == Ok([]);
    assert [row] + [] == [row];
    assert AdvRowsOf(o, entries, lib.fromIsoFormat) == Ok([row]);
  }

  /** A timestamp in the `Z` form reaches `fromisoformat` with an explicit
      `+00:00` offset. */
  lemma UtcSuffix(t: string)
    requires 'Z' !in t
    ensures ReplaceZ(t + "Z") == t + "+00:00"
  {
    assert ReplaceZ("Z") == "+00:00";
    ReplaceZAppend(t, "Z");
  }

  /** The `Z` rewrite works character by character, so it distributes over
      concatenation. */
  lemma {:induction false} ReplaceZAppend(s: string, t: string)
    ensures ReplaceZ(s + t) == ReplaceZ(s) + ReplaceZ(t)
    decreases |s|
  {
    if |s| > 0 {
      var u := s + t;
      assert u[0] == s[0];
      assert u[1..] == s[1..] + t;
      ReplaceZAppend(s[1..], t);
      var h := if s[0] == 'Z' then "+00:00" else [s[0]];
      assert ReplaceZ(u) == h + (ReplaceZ(s[1..]) + ReplaceZ(t));
      assert ReplaceZ(s) == h + ReplaceZ(s[1..]);
    } else {
      assert s + t == t;
    }
  }
}

=== FILE: store.dfy ===
/** The relational store as in-memory tables: each table is the sequence of
    its rows with the uniqueness keys of the schema, and each write of the
    ingester is a pure function from one database state to the next. */
module Store {
  import opened Wrappers
  import opened Json
  import opened Externals
  import opened Tables
  import Canonical

  datatype Server = Server(id: nat, code: string)

  datatype Player = Player(id: nat, uuid: string)

  /** One execution of the ingester; `finishedAt` is unset until the run
      has processed every file. */
  datatype Ingest = Ingest(
    id: nat,
    serverId: nat,
    source: string,
    notes: Option<string>,
    startedAt: Instant,
    finishedAt: Option<Instant>
  )

  /** One deduplicated observation of a player's statistics document. */
  datatype Snapshot = Snapshot(
    id: nat,
    ingestId: nat,
    serverId: nat,
    playerId: nat,
    observedAt: Instant,
    statsJson: Value,
    advancementsJson: Option<Value>,
    statsHash: Digest,
    advHash: Option<Digest>
  )

  datatype StatFact = StatFact(
    snapshotId: nat,
    playerId: nat,
    serverId: nat,
    observedAt: Instant,
    category: string,
    statKey: string,
    value: int
  )

  datatype AdvancementFact = AdvancementFact(
    snapshotId: nat,
    playerId: nat,
    serverId: nat,
    observedAt: Instant,
    advancementKey: string,
    done: bool,
    doneAt: Option<Timestamp>
  )

  /** The five tables the ingester writes, the servers table it reads, and
      the next value of each id sequence. */
  datatype Db = Db(
    servers: seq<Server>,
    players: seq<Player>,
    ingests: seq<Ingest>,
    snapshots: seq<Snapshot>,
    statFacts: seq<StatFact>,
    advancementFacts: seq<AdvancementFact>,
    nextPlayerId: nat,
    nextIngestId: nat,
    nextSnapshotId: nat
  )

  // Keys of the schema's uniqueness constraints and of its foreign keys.

  function ServerId(s: Server): nat { s.id }
  function PlayerId(p: Player): nat { p.id }
  function PlayerUuid(p: Player): string { p.uuid }
  function IngestId(i: Ingest): nat { i.id }
  function SnapshotId(s: Snapshot): nat { s.id }

  /** The deduplication key: server, player and statistics hash. The
      advancements hash is deliberately not part of it. */
  function SnapshotKey(s: Snapshot): (nat, nat, Digest) {
    (s.serverId, s.playerId, s.statsHash)
  }

  /** What a fact row copies from the snapshot it was exploded from. */
  datatype Origin = Origin(snapshotId: nat, playerId: nat, serverId: nat, observedAt: Instant)

  function SnapshotOrigin(s: Snapshot): Origin {
    Origin(s.id, s.playerId, s.serverId, s.observedAt)
  }

  function StatKey(f: StatFact): (nat, string, string) {
    (f.snapshotId, f.category, f.statKey)
  }

  function StatOrigin(f: StatFact): Origin {
    Origin(f.snapshotId, f.playerId, f.serverId, f.observedAt)
  }

  function AdvancementKey(f: AdvancementFact): (nat, string) {
    (f.snapshotId, f.advancementKey)
  }

  function AdvancementOrigin(f: AdvancementFact): Origin {
    Origin(f.snapshotId, f.playerId, f.serverId, f.observedAt)
  }

  /** The schema's constraints: unique keys and ids, ids drawn from their
      sequences, foreign keys resolved, and every fact agreeing with the
      snapshot it belongs to. */
  predicate Valid(db: Db) {
    && PlayersValid(db.players, db.nextPlayerId)
    && IngestsValid(db.ingests, db.nextIngestId)
    && SnapshotsValid(db.snapshots, db.nextSnapshotId)
    && SnapshotRefsResolve(db.servers, db.players, db.ingests, db.snapshots)
    && StatFactsValid(db.snapshots, db.statFacts)
    && AdvancementFactsValid(db.snapshots, db.advancementFacts)
  }

  /** One player per uuid, ids unique and below the next sequence value. */
  predicate PlayersValid(players: seq<Player>, next: nat) {
    && 1 <= next
    && UniqueKeys(players, PlayerUuid)
    && UniqueKeys(players, PlayerId)
    && forall i :: 0 <= i < |players| ==> 1 <= players[i].id < next
  }

  predicate IngestsValid(ingests: seq<Ingest>, next: nat) {
    && 1 <= next
    && UniqueKeys(ingests, IngestId)
    && forall i :: 0 <= i < |ingests| ==> 1 <= ingests[i].id < next
  }

  /** At most one snapshot per (server, player, statistics hash), ids unique. */
  predicate SnapshotsValid(snapshots: seq<Snapshot>, next: nat) {
    && 1 <= next
    && UniqueKeys(snapshots, SnapshotId)
    && UniqueKeys(snapshots, SnapshotKey)
    && forall i :: 0 <= i < |snapshots| ==> 1 <= snapshots[i].id < next
  }

  /** The foreign keys of every snapshot row resolve. */
  predicate SnapshotRefsResolve(servers: seq<Server>, players: seq<Player>, ingests: seq<Ingest>, snapshots: seq<Snapshot>) {
    forall i :: 0 <= i < |snapshots| ==>
      && HasKey(ingests, IngestId, snapshots[i].ingestId)
      && HasKey(servers, ServerId, snapshots[i].serverId)
      && HasKey(players, PlayerId, snapshots[i].playerId)
  }

  /** At most one fact per (snapshot, category, stat key), each agreeing with
      an existing snapshot on snapshot, player, server and observation time. */
  predicate StatFactsValid(snapshots: seq<Snapshot>, facts: seq<StatFact>) {
    && UniqueKeys(facts, StatKey)
    && forall i :: 0 <= i < |facts| ==> HasKey(snapshots, SnapshotOrigin, StatOrigin(facts[i]))
  }

  /** At most one fact per (snapshot, advancement key), each agreeing with an
      existing snapshot. */
  predicate AdvancementFactsValid(snapshots: seq<Snapshot>, facts: seq<AdvancementFact>) {
    && UniqueKeys(facts, AdvancementKey)
    && forall i :: 0 <= i < |facts| ==> HasKey(snapshots, SnapshotOrigin, AdvancementOrigin(facts[i]))
  }

  /** An empty database over a given servers table. */
  function Empty(servers: seq<Server>): (db: Db)
    ensures Valid(db)
  {
    Db(servers, [], [], [], [], [], 1, 1, 1)
  }

  /** The id of the first player row with this uuid. */
  function FindPlayer(players: seq<Player>, uuid: string): (r: Option<nat>)
    ensures r.Some? <==> HasKey(players, PlayerUuid, uuid)
    ensures r.Some? ==> Player(r.value, uuid) in players
  {
    if |players| == 0 then None
    else if players[0].uuid == uuid then Some(players[0].id)
    else
      var r := FindPlayer(players[1..], uuid);
      assert HasKey(players, PlayerUuid, uuid) <==> HasKey(players[1..], PlayerUuid, uuid) by {
        if HasKey(players, PlayerUuid, uuid) {
          var i :| 0 <= i < |players| && PlayerUuid(players[i]) == uuid;
          assert players[1..][i - 1] == players[i];
        }
        if HasKey(players[1..], PlayerUuid, uuid) {
          var i :| 0 <= i < |players[1..]| && PlayerUuid(players[1..][i]) == uuid;
          assert players[i + 1] == players[1..][i];
        }
      }
      r
  }

  /** `upsert_player`: the id of the player with this uuid, inserting the
      player on first sighting. */
  function UpsertPlayer(db: Db, uuid: string): (r: (Db, nat))
    ensures Player(r.1, uuid) in r.0.players
    ensures HasKey(db.players, PlayerUuid, uuid) ==> r.0 == db
    ensures !HasKey(db.players, PlayerUuid, uuid) ==>
              && r.0 == db.(players := db.players + [Player(r.1, uuid)], nextPlayerId := r.0.nextPlayerId)
              && r.1 == db.nextPlayerId < r.0.nextPlayerId
    ensures Valid(db) ==> Valid(r.0)
  {
    match FindPlayer(db.players, uuid)
    case Some(id) => (db, id)
    case None =>
      var id := db.nextPlayerId;
      var db' := db.(players := db.players + [Player(id, uuid)], nextPlayerId := id + 1);
      assert Valid(db) ==> Valid(db') by {
        if Valid(db) {
          assert !HasKey(db.players, PlayerId, id);
          forall i | 0 <= i < |db.snapshots| ensures HasKey(db'.players, PlayerId, db.snapshots[i].playerId) {
            HasKeyGrows(db.players, db'.players, PlayerId, db.snapshots[i].playerId);
          }
        }
      }
      (db', id)
  }

  datatype ServerError = ServerNotFound(code: string)

  /** `get_server_id`: the id of the first server row with this code; a
      missing code is a configuration error. */
  function GetServerId(db: Db, code: string): (r: Result<nat, ServerError>)
    ensures r.Ok? <==> exists i :: 0 <= i < |db.servers| && db.servers[i].code == code
    ensures r.Ok? ==> Server(r.value, code) in db.servers
    ensures r.Err? ==> r.error == ServerNotFound(code)
  {
    FindServer(db.servers, code)
  }

  function FindServer(servers: seq<Server>, code: string): (r: Result<nat, ServerError>)
    ensures r.Ok? <==> exists i :: 0 <= i < |servers| && servers[i].code == code
    ensures r.Ok? ==> Server(r.value, code) in servers
    ensures r.Err? ==> r.error == ServerNotFound(code)
  {
    if |servers| == 0 then Err(ServerNotFound(code))
    else if servers[0].code == code then Ok(servers[0].id)
    else
      var r := FindServer(servers[1..], code);
      assert (exists i :: 0 <= i < |servers| && servers[i].code == code) <==>
             (exists i :: 0 <= i < |servers[1..]| && servers[1..][i].code == code) by {
        if exists i :: 0 <= i < |servers| && servers[i].code == code {
          var i :| 0 <= i < |servers| && servers[i].code == code;
          assert servers[1..][i - 1] == servers[i];
        }
      }
      r
  }

  /** `create_ingest`: records a new, unfinished run and returns its id. */
  function CreateIngest(db: Db, serverId: nat, source: string, notes: Option<string>, now: Instant): (r: (Db, nat))
    ensures Valid(db) ==> !HasKey(db.ingests, IngestId, r.1)
    ensures r.0 == db.(ingests := db.ingests + [Ingest(r.1, serverId, source, notes, now, None)],
                       nextIngestId := r.0.nextIngestId)
    ensures Valid(db) ==> Valid(r.0)
  {
    var id := db.nextIngestId;
    var db' := db.(ingests := db.ingests + [Ingest(id, serverId, source, notes, now, None)], nextIngestId := id + 1);
    assert Valid(db) ==> !HasKey(db.ingests, IngestId, id);
    assert Valid(db) ==> Valid(db') by {
      if Valid(db) {
        forall i | 0 <= i < |db.snapshots| ensures HasKey(db'.ingests, IngestId, db.snapshots[i].ingestId) {
          HasKeyGrows(db.ingests, db'.ingests, IngestId, db.snapshots[i].ingestId);
        }
      }
    }
    (db', id)
  }

  /** `finish_ingest`: stamps `finishedAt` on the run with this id. */
  function FinishIngest(db: Db, ingestId: nat, now: Instant): (r: Db)
    ensures |r.ingests| == |db.ingests|
    ensures forall i :: 0 <= i < |db.ingests| && db.ingests[i].id == ingestId ==>
              r.ingests[i] == db.ingests[i].(finishedAt := Some(now))
    ensures forall i :: 0 <= i < |db.ingests| && db.ingests[i].id != ingestId ==>
              r.ingests[i] == db.ingests[i]
    ensures r == db.(ingests := r.ingests)
    ensures Valid(db) ==> Valid(r)
  {
    var ingests := seq(|db.ingests|, i requires 0 <= i < |db.ingests| =>
                       if db.ingests[i].id == ingestId then db.ingests[i].(finishedAt := Some(now))
                       else db.ingests[i]);
    var r := db.(ingests := ingests);
    assert forall i :: 0 <= i < |ingests| ==> ingests[i].id == db.ingests[i].id;
    assert Valid(db) ==> Valid(r) by {
      if Valid(db) {
        forall i | 0 <= i < |db.snapshots| ensures HasKey(ingests, IngestId, db.snapshots[i].ingestId) {
          var j :| 0 <= j < |db.ingests| && IngestId(db.ingests[j]) == db.snapshots[i].ingestId;
          assert IngestId(ingests[j]) == db.snapshots[i].ingestId;
        }
      }
    }
    r
  }

  /** `insert_snapshot`: inserts the snapshot unless one with the same server,
      player and statistics hash exists; returns the new row's id, or `None`
      when the insert was deduplicated. The advancements document is stored
      and hashed only when it is truthy. */
  function InsertSnapshot(db: Db, lib: Lib, ingestId: nat, serverId: nat, playerId: nat,
                          observedAt: Instant, stats: Value, adv: Option<Value>): (r: (Db, Option<nat>))
    ensures var key := (serverId, playerId, Canonical.Sha256Json(lib.sha256, stats));
            && (HasKey(db.snapshots, SnapshotKey, key) ==> r == (db, None))
            && (!HasKey(db.snapshots, SnapshotKey, key) ==>
                  && r.1 == Some(db.nextSnapshotId)
                  && r.0 == db.(snapshots := r.0.snapshots, nextSnapshotId := db.nextSnapshotId + 1)
                  && r.0.snapshots == db.snapshots + [NewSnapshot(lib, db.nextSnapshotId, ingestId, serverId, playerId, observedAt, stats, adv)])
  {
    var row := NewSnapshot(lib, db.nextSnapshotId, ingestId, serverId, playerId, observedAt, stats, adv);
    if HasKey(db.snapshots, SnapshotKey, SnapshotKey(row)) then (db, None)
    else (db.(snapshots := db.snapshots + [row], nextSnapshotId := row.id + 1), Some(row.id))
  }

  /** The row `insert_snapshot` writes: both documents and their hashes; the
      advancements document and hash are NULL unless the document is truthy. */
  function NewSnapshot(lib: Lib, id: nat, ingestId: nat, serverId: nat, playerId: nat,
                       observedAt: Instant, stats: Value, adv: Option<Value>): (s: Snapshot)
    ensures s.id == id && s.ingestId == ingestId && s.observedAt == observedAt && s.statsJson == stats
    ensures SnapshotKey(s) == (serverId, playerId, Canonical.Sha256Json(lib.sha256, stats))
    ensures s.advHash.Some? <==> Present(adv)
    ensures s.advancementsJson.Some? <==> Present(adv)
    ensures Present(adv) ==> s.advancementsJson == adv && s.advHash == Some(Canonical.Sha256Json(lib.sha256, adv.value))
  {
    Snapshot(id, ingestId, serverId, playerId, observedAt, stats,
             if Present(adv) then adv else None,
             Canonical.Sha256Json(lib.sha256, stats),
             if Present(adv) then Some(Canonical.Sha256Json(lib.sha256, adv.value)) else None)
  }

  /** In a valid store no fact row refers to the id the next snapshot gets. */
  lemma NextSnapshotHasNoFacts(db: Db)
    requires Valid(db)
    ensures forall g :: g in db.statFacts ==> g.snapshotId != db.nextSnapshotId
    ensures forall g :: g in db.advancementFacts ==> g.snapshotId != db.nextSnapshotId
  {
    forall g | g in db.statFacts ensures g.snapshotId < db.nextSnapshotId {
      var i :| 0 <= i < |db.statFacts| && db.statFacts[i] == g;
      var j :| 0 <= j < |db.snapshots| && SnapshotOrigin(db.snapshots[j]) == StatOrigin(g);
    }
    forall g | g in db.advancementFacts ensures g.snapshotId < db.nextSnapshotId {
      var i :| 0 <= i < |db.advancementFacts| && db.advancementFacts[i] == g;
      var j :| 0 <= j < |db.snapshots| && SnapshotOrigin(db.snapshots[j]) == AdvancementOrigin(g);
    }
  }

  /** Admitting a snapshot keeps the schema's constraints: in particular there
      is still at most one snapshot per (server, player, statistics hash). */
  lemma InsertSnapshotValid(db: Db, lib: Lib, ingestId: nat, serverId: nat, playerId: nat,
                            observedAt: Instant, stats: Value, adv: Option<Value>)
    requires Valid(db)
    requires HasKey(db.ingests, IngestId, ingestId)
    requires HasKey(db.servers, ServerId, serverId)
    requires HasKey(db.players, PlayerId, playerId)
    ensures Valid(InsertSnapshot(db, lib, ingestId, serverId, playerId, observedAt, stats, adv).0)
  {
    var r := InsertSnapshot(db, lib, ingestId, serverId, playerId, observedAt, stats, adv);
    if r.1.Some? {
      var row := NewSnapshot(lib, db.nextSnapshotId, ingestId, serverId, playerId, observedAt, stats, adv);
      var snaps := r.0.snapshots;
      assert snaps == db.snapshots + [row];
      assert !HasKey(db.snapshots, SnapshotId, row.id);
      forall i | 0 <= i < |db.statFacts| ensures HasKey(snaps, SnapshotOrigin, StatOrigin(db.statFacts[i])) {
        HasKeyGrows(db.snapshots, snaps, SnapshotOrigin, StatOrigin(db.statFacts[i]));
      }
      forall i | 0 <= i < |db.advancementFacts| ensures HasKey(snaps, SnapshotOrigin, AdvancementOrigin(db.advancementFacts[i])) {
        HasKeyGrows(db.snapshots, snaps, SnapshotOrigin, AdvancementOrigin(db.advancementFacts[i]));
      }
      assert SnapshotRefsResolve(db.servers, db.players, db.ingests, snaps) by {
        assert snaps[|db.snapshots|] == row;
      }
    }
  }

  /** Upserting the same uuid twice returns the same id and adds no second
      player row. */
  lemma UpsertPlayerRepeat(db: Db, uuid: string)
    ensures var (db1, id1) := UpsertPlayer(db, uuid);
            UpsertPlayer(db1, uuid) == (db1, id1)
  {
    var (db1, id1) := UpsertPlayer(db, uuid);
    if !HasKey(db.players, PlayerUuid, uuid) {
      FindPlayerLast(db.players, Player(id1, uuid));
    }
  }

  /** A uuid that is not yet present is found at the row appended for it. */
  lemma {:induction false} FindPlayerLast(players: seq<Player>, p: Player)
    requires !HasKey(players, PlayerUuid, p.uuid)
    ensures FindPlayer(players + [p], p.uuid) == Some(p.id)
    decreases |players|
  {
    if |players| > 0 {
      assert (players + [p])[1..] == players[1..] + [p];
      assert players[0].uuid != p.uuid;
      assert forall i :: 0 <= i < |players[1..]| ==> players[1..][i] == players[i + 1];
      FindPlayerLast(players[1..], p);
    }
  }

  /** Rows appended after a uuid's row do not change which row is found. */
  lemma {:induction false} FindPlayerPrefix(players: seq<Player>, more: seq<Player>, uuid: string)
    requires players <= more && FindPlayer(players, uuid).Some?
    ensures FindPlayer(more, uuid) == FindPlayer(players, uuid)
    decreases |players|
  {
    if players[0].uuid != uuid {
      assert more[0] == players[0];
      assert players[1..] <= more[1..];
      FindPlayerPrefix(players[1..], more[1..], uuid);
    }
  }

  /** The deduplication key ignores the advancements document: a second
      insert with the same statistics but another advancements document adds
      nothing, and the stored row keeps the first insert's advancements. */
  lemma DedupIgnoresAdvancements(db: Db, lib: Lib, ingestId1: nat, ingestId2: nat, serverId: nat, playerId: nat,
                                 observed1: Instant, observed2: Instant, stats: Value, adv1: Option<Value>, adv2: Option<Value>)
    requires !HasKey(db.snapshots, SnapshotKey, (serverId, playerId, Canonical.Sha256Json(lib.sha256, stats)))
    ensures var (db1, id1) := InsertSnapshot(db, lib, ingestId1, serverId, playerId, observed1, stats, adv1);
            var (db2, id2) := InsertSnapshot(db1, lib, ingestId2, serverId, playerId, observed2, stats, adv2);
            && id1.Some? && id2 == None && db2 == db1
            && |db2.snapshots| == |db.snapshots| + 1
            && db2.snapshots[|db.snapshots|].advancementsJson == (if Present(adv1) then adv1 else None)
  {
    var (db1, id1) := InsertSnapshot(db, lib, ingestId1, serverId, playerId, observed1, stats, adv1);
    var key := (serverId, playerId, Canonical.Sha256Json(lib.sha256, stats));
    assert SnapshotKey(db1.snapshots[|db.snapshots|]) == key;
  }

  /** `finish_ingest` stamps exactly the run with the given id and changes
      nothing else; an unknown id changes nothing. */
  lemma FinishIngestOnlyThatRun(db: Db, ingestId: nat, now: Instant)
    requires Valid(db)
    ensures var r := FinishIngest(db, ingestId, now);
            && (HasKey(db.ingests, IngestId, ingestId) ==>
                  exists i :: 0 <= i < |db.ingests| && db.ingests[i].id == ingestId
                    && r.ingests == db.ingests[i := db.ingests[i].(finishedAt := Some(now))])
            && (!HasKey(db.ingests, IngestId, ingestId) ==> r == db)
  {
    var r := FinishIngest(db, ingestId, now);
    if HasKey(db.ingests, IngestId, ingestId) {
      var i :| 0 <= i < |db.ingests| && IngestId(db.ingests[i]) == ingestId;
      assert r.ingests == db.ingests[i := db.ingests[i].(finishedAt := Some(now))];
    } else {
      assert r.ingests == db.ingests;
    }
  }
}

=== FILE: tables.dfy ===
/** A table as the sequence of its rows in insertion order, with a
    uniqueness key, and the "INSERT ... ON CONFLICT (key) DO NOTHING" write
    that every fact table of the ingester uses. */
module Tables {

  /** Some row of `rows` has key `k`. */
  predicate HasKey<R, K(==)>(rows: seq<R>, key: R -> K, k: K) {
    exists i :: 0 <= i < |rows| && key(rows[i]) == k
  }

  /** The uniqueness constraint on `key` holds. */
  predicate UniqueKeys<R, K(==)>(rows: seq<R>, key: R -> K) {
    forall i, j :: 0 <= i < j < |rows| ==> key(rows[i]) != key(rows[j])
  }

  /** Inserts `row` unless a row with its key is present; a present row is
      left exactly as it was. */
  function InsertIgnore<R, K(==)>(rows: seq<R>, key: R -> K, row: R): (r: seq<R>)
    ensures rows <= r && |r| <= |rows| + 1
    ensures HasKey(r, key, key(row))
    ensures |r| == |rows| + 1 <==> !HasKey(rows, key, key(row))
    ensures |r| == |rows| + 1 ==> r[|rows|] == row
    ensures UniqueKeys(rows, key) ==> UniqueKeys(r, key)
  {
    if HasKey(rows, key, key(row)) then rows
    else
      assert key((rows + [row])[|rows|]) == key(row);
      rows + [row]
  }

  /** `executemany` of the insert over a batch, row by row in batch order. */
  function InsertAll<R, K(==)>(rows: seq<R>, key: R -> K, batch: seq<R>): (r: seq<R>)
    ensures rows <= r
    ensures forall x :: x in batch ==> HasKey(r, key, key(x))
    ensures forall i :: |rows| <= i < |r| ==> r[i] in batch && !HasKey(rows, key, key(r[i]))
    ensures UniqueKeys(rows, key) ==> UniqueKeys(r, key)
    decreases |batch|
  {
    if |batch| == 0 then rows
    else
      var first := InsertIgnore(rows, key, batch[0]);
      var r := InsertAll(first, key, batch[1..]);
      assert forall x :: x in batch ==> x == batch[0] || x in batch[1..];
      assert HasKey(first, key, key(batch[0]));
      assert forall i :: |rows| <= i < |r| ==> r[i] in batch && !HasKey(rows, key, key(r[i])) by {
        forall i | |rows| <= i < |r|
          ensures r[i] in batch && !HasKey(rows, key, key(r[i]))
        {
          if i < |first| {
            assert i == |rows| && r[i] == batch[0];
          } else {
            assert r[i] in batch[1..];
            assert forall j :: 0 <= j < |rows| ==> first[j] == rows[j];
          }
        }
      }
      r
  }

  /** A batch whose every key is already present inserts nothing. */
  lemma {:induction false} InsertAllPresent<R, K>(rows: seq<R>, key: R -> K, batch: seq<R>)
    requires forall x :: x in batch ==> HasKey(rows, key, key(x))
    ensures InsertAll(rows, key, batch) == rows
    decreases |batch|
  {
    if |batch| > 0 {
      assert batch[0] in batch;
      assert forall x :: x in batch[1..] ==> x in batch;
      InsertAllPresent(rows, key, batch[1..]);
    }
  }

  /** A duplicate-free batch none of whose keys is present is appended
      whole, in batch order. */
  lemma {:induction false} InsertAllFresh<R, K>(rows: seq<R>, key: R -> K, batch: seq<R>)
    requires UniqueKeys(batch, key)
    requires forall x :: x in batch ==> !HasKey(rows, key, key(x))
    ensures InsertAll(rows, key, batch) == rows + batch
    decreases |batch|
  {
    if |batch| > 0 {
      var first := rows + [batch[0]];
      assert InsertAll(rows, key, batch) == InsertAll(first, key, batch[1..]) by {
        assert batch[0] in batch;
        InsertIgnoreFresh(rows, key, batch[0]);
        InsertAllStep(rows, key, batch);
      }
      assert InsertAll(first, key, batch[1..]) == first + batch[1..] by {
        FreshTail(rows, key, batch);
        InsertAllFresh(first, key, batch[1..]);
      }
      AppendFirst(rows, batch);
    }
  }

  /** One step of a batch insert: the first row, then the rest. */
  lemma InsertAllStep<R, K>(rows: seq<R>, key: R -> K, batch: seq<R>)
    requires |batch| > 0
    ensures InsertAll(rows, key, batch) == InsertAll(InsertIgnore(rows, key, batch[0]), key, batch[1..])
  {
  }

  /** Appending a batch's first row and then its rest appends the batch. */
  lemma AppendFirst<R>(rows: seq<R>, batch: seq<R>)
    requires |batch| > 0
    ensures rows + [batch[0]] + batch[1..] == rows + batch
  {
    assert [batch[0]] + batch[1..] == batch;
  }

  /** A row whose key is absent is appended. */
  lemma InsertIgnoreFresh<R, K>(rows: seq<R>, key: R -> K, row: R)
    requires !HasKey(rows, key, key(row))
    ensures InsertIgnore(rows, key, row) == rows + [row]
  {
    var r := InsertIgnore(rows, key, row);
    assert |r| == |rows| + 1 && rows <= r && r[|rows|] == row;
    assert forall i :: 0 <= i < |r| ==> r[i] == (rows + [row])[i];
  }

  /** After the first row of a fresh batch is appended, the rest of the batch
      is still fresh and duplicate-free. */
  lemma FreshTail<R, K>(rows: seq<R>, key: R -> K, batch: seq<R>)
    requires |batch| > 0 && UniqueKeys(batch, key)
    requires forall x :: x in batch ==> !HasKey(rows, key, key(x))
    ensures UniqueKeys(batch[1..], key)
    ensures forall x :: x in batch[1..] ==> !HasKey(rows + [batch[0]], key, key(x))
  {
    var first := rows + [batch[0]];
    forall x | x in batch[1..] ensures !HasKey(first, key, key(x)) {
      var m :| 0 <= m < |batch[1..]| && batch[1..][m] == x;
      assert batch[m + 1] == x;
      assert key(batch[0]) != key(x);
      assert x in batch;
      assert forall j :: 0 <= j < |rows| ==> key(rows[j]) != key(x);
      assert forall j :: 0 <= j < |first| ==> first[j] == if j < |rows| then rows[j] else batch[0];
    }
    forall i, j | 0 <= i < j < |batch[1..]| ensures key(batch[1..][i]) != key(batch[1..][j]) {
      assert batch[1..][i] == batch[i + 1] && batch[1..][j] == batch[j + 1];
    }
  }

  /** Inserting the same batch twice adds nothing the second time. */
  lemma InsertAllIdempotent<R, K>(rows: seq<R>, key: R -> K, batch: seq<R>)
    ensures InsertAll(InsertAll(rows, key, batch), key, batch) == InsertAll(rows, key, batch)
  {
    InsertAllPresent(InsertAll(rows, key, batch), key, batch);
  }

  /** A batch inserted on top of a table keeps the table's rows as they were. */
  lemma HasKeyGrows<R, K>(rows: seq<R>, more: seq<R>, key: R -> K, k: K)
    requires rows <= more && HasKey(rows, key, k)
    ensures HasKey(more, key, k)
  {
    var i :| 0 <= i < |rows| && key(rows[i]) == k;
    assert more[i] == rows[i];
  }

  /** Two duplicate-free batches with no key in common concatenate to a
      duplicate-free batch. */
  lemma UniqueConcat<R, K>(a: seq<R>, b: seq<R>, key: R -> K)
    requires UniqueKeys(a, key) && UniqueKeys(b, key)
    requires forall x, y :: x in a && y in b ==> key(x) != key(y)
    ensures UniqueKeys(a + b, key)
  {
    forall i, j | 0 <= i < j < |a + b|
      ensures key((a + b)[i]) != key((a + b)[j])
    {
      if j < |a| {
        assert (a + b)[i] == a[i] && (a + b)[j] == a[j];
      } else if i < |a| {
        assert (a + b)[i] in a && (a + b)[j] in b;
      } else {
        assert (a + b)[i] == b[i - |a|] && (a + b)[j] == b[j - |a|];
      }
    }
  }
}

=== FILE: wrappers.dfy ===
/** Failure-compatible wrappers used throughout the model: an optional value
    (Python's `None` or a present value) and a result that either carries a
    value or the error that the source would raise. */
module Wrappers {

  datatype Option<+T> = None | Some(value: T) {

    predicate IsFailure() {
      None?
    }

    function PropagateFailure<U>(): Option<U>
      requires None?
    {
      None
    }

    function Extract(): T
      requires Some?
    {
      value
    }

    /** The value, or `default` when there is none (Python's `d.get(k, default)`). */
    function GetOr(default: T): T {
      match this
      case Some(v) => v
      case None => default
    }
  }

  datatype Result<+R, +E> = Ok(value: R) | Err(error: E) {

    predicate IsFailure() {
      Err?
    }

    function PropagateFailure<U>(): Result<U, E>
      requires Err?
    {
      Err(error)
    }

    function Extract(): R
      requires Ok?
    {
      value
    }
  }
}
